=== FILE: README.md ===
# vnotes mind map — a Dafny model of its core

vnotes is a mind-map note editor written in React. A note is a nested `NodeData`
tree. It is turned into a flat list of nodes: each node is a record with an id, a
parent reference `pid`, a label, a canvas position and optional `expanded` and
`visible` flags. That list is edited and drawn as an SVG mind map.

This project models that core as immutable datatypes and pure functions, and proves
what the code promises about them:

- `Types`: the node record (`Entry`), the nested tree (`Tree`), and the JavaScript
  truthiness and `!== false` tests the code applies to `pid`, `visible` and `expanded`.
- `Lib`: `flattenTree` turns a nested tree into a pre-order list with parent references.
- `NoteTree`: which edges and which nodes of the flat list are drawn.
- `NoteNode`:
  - `hasChildren`;
  - expand/collapse on double click;
  - the set of descendants;
  - dragging a node together with its descendants, scaled by the zoom.
- `NodeGesture`: the tap, double-tap, long-tap and context-menu handlers of a node, as
  one event-driven state machine. Timers are events, and menu requests and double
  clicks are outputs.
- `Paper`: the `viewBox` of the paper, under reset, panning and wheel zoom.
- `Legacy`: the older `NoteTree`/`NoteNode` copies kept in `App.tsx`. Their edge
  rule ignores `visible`, and their drag moves a single node.

Arithmetic is over Dafny's exact `real`. Two behaviours of the code are easy to
miss, and the model keeps both:

- A wheel tick at the centre of the paper moves the `viewBox` origin, by half of
  (new zoom - old zoom) times the paper size; `Paper.WheelAtCentreMovesOrigin`
  proves this.
- A pan shifts the origin by the raw screen delta; it is not scaled by the zoom.

## Model

| member | source | states |
|---|---|---|
| Lib.FlattenTree | src/lib.tsx:17-29 | the output keeps the accumulator as its prefix, puts the root's own record right after it, and has one entry per node of the nested tree |
| Lib.FlattenChildren | src/lib.tsx:22-27 | flattening the children appends exactly as many entries as the children's subtrees hold nodes and never changes what was already in the list |
| Lib.FlattenIsPreorder | src/lib.tsx:17-29 | the accumulator-passing flattening equals the accumulator followed by an independent pre-order definition (a node, then each child's subtree in source order, children re-tagged with the parent's id) |
| Lib.FlattenLinks | src/lib.tsx:22-25 | every entry after the root has a `pid`, and the (pid, id) pairs of the flat list are exactly the (parent, child) pairs of the nesting, whatever `pid` a child carried before |
| Lib.SubtreeContiguous | src/lib.tsx:22-27 | the subtree of the k-th child is one contiguous block of the output that starts right after the root and the earlier siblings' blocks, and equals that child's own flattening |
| Lib.BlockLayout | src/lib.tsx:22-27 | the flat list of a tree is the root, then the earlier siblings' subtrees, then the k-th child's subtree, then the later siblings' subtrees |
| Lib.FlattenIds | src/lib.tsx:17-27 | the flat list carries exactly the ids of the nested tree, and ids that are distinct in the tree stay distinct in the list |
| Lib.RootChildrenRecovered | src/lib.tsx:22-27 | collecting the entries whose `pid` is the root's id gives back the root's children in source order, each tagged with that `pid` (when the root's id occurs nowhere below it and the root's own `pid` is not its own id) |
| Lib.ChildrenRecovered | src/lib.tsx:17-29 | for every node of a tree with distinct ids, collecting the flat entries whose `pid` is that node's id gives back exactly its children, in source order, each tagged with that `pid`, as long as the root's own untouched `pid` does not name the node |
| NoteTree.IndexById | src/components/NoteTree.tsx:10-13 | `nodesMap` has a key exactly for each id in the list, and maps it to the last entry with that id, as repeated `Map.set` leaves it |
| NoteTree.Edges | src/components/NoteTree.tsx:15-29 | one slot per entry; a slot holds a line exactly when the entry's `pid` is truthy, the entry is not hidden and some entry carries that id; the line is keyed `line-<pid>-<id>` and runs from the last such parent's position to the child's |
| NoteTree.DrawnIndices | src/components/NoteTree.tsx:37 | the drawn positions are increasing and are exactly the entries that are not hidden or have no truthy `pid`; an entry without a parent is drawn even when hidden |
| NoteTree.DrawnNodesAreSelection | src/components/NoteTree.tsx:37-46 | the drawn node list has one node per drawn position, in flat-list order, each getting its entry's id, x, y, label and expanded flag unchanged |
| NoteNode.HasChildren | src/components/NoteNode.tsx:71-73 | true exactly when some entry's `pid` is strictly equal to the id (a `pid` of 0 counts here) |
| NoteNode.SetExpanded | src/components/NoteNode.tsx:184-194 | entries with the id get the given explicit flag; every other entry is returned unchanged |
| NoteNode.ToggleExpanded | src/components/NoteNode.tsx:180-195 | without children nothing changes; otherwise only the entries with the id change, to an explicit flag that is true exactly when the prop was `false`; no id, pid, label, position or `visible` changes, and `hasChildren` is preserved |
| NoteNode.ToggleTwice | src/components/NoteNode.tsx:180-195 | two double clicks restore every entry's effective expanded state; an explicit flag comes back exactly, and an absent one on the toggled node comes back as explicit true |
| NoteNode.Grow | src/components/NoteNode.tsx:222-228 | the expansion stays within the list's ids, contains what it started from, and is closed under taking children |
| NoteNode.Descendants | src/components/NoteNode.tsx:222-228 | the captured descendant ids are ids of the list and are closed under taking children of the node or of a captured id |
| NoteNode.DescendantsAreChains | src/components/NoteNode.tsx:222-228 | an id is captured exactly when some entry with that id has a `pid` chain leading to the dragged node |
| NoteNode.Translate | src/components/NoteNode.tsx:239-251 | the dragged node and every captured id move by the given delta; every other entry is identical; the length is kept |
| NoteNode.TranslateCompose | src/components/NoteNode.tsx:239-251 | two successive drag moves equal one move by the sum of their deltas |
| NoteNode.DragStep | src/components/NoteNode.tsx:213-260 | a drag begins only on an edit-mode pointer-down, which records the pointer as the start sample, and the carried ids change only then, captured as the node's descendants; outside edit mode a pointer-down changes nothing; pointer-up always ends the drag and a move neither starts nor ends one; the flat tree changes only on a move during a drag, keeps its length and ids, and every entry that is neither the node nor carried stays identical; during a drag a move shifts the node and the carried entries by the pointer delta since the last sample times `zoom ?? 1` and makes the pointer the new sample |
| NoteNode.DragTelescopes | src/components/NoteNode.tsx:231-256 | over a run of moves during a drag, the per-sample shifts add up to one translation by (last position − start) times the zoom |
| NoteNode.DragFromDown | src/components/NoteNode.tsx:213-260 | in edit mode, a pointer-down followed by moves carries the node and the descendants captured at pointer-down by (last pointer position − pointer-down position) × `zoom ?? 1`, and leaves every other entry identical |
| NoteNode.NoDragOutsideEditMode | src/components/NoteNode.tsx:213-217 | outside edit mode no event sequence starts a drag or moves any entry |
| NodeGesture.TapStep | src/components/NoteNode.tsx:78-172 | mouse pointer-downs are ignored, while moves, releases and cancels are not filtered by pointer type; a double click is emitted exactly for a second non-mouse tap inside the window or a native double click; a second tap while the first is pending emits a double click and arms no long tap; a first tap opens the double-tap window and, in edit mode with a primary pointer, arms the long-tap timer at its position; edit-mode moves end the window and cancel the long tap beyond 10 px on either axis; up, cancel and expiry disarm it, and up and cancel change nothing else, so the double-tap window stays open; the expiry of a timer that is not armed changes nothing; the long-tap expiry emits a `longtap` menu request; a context menu emits a `contextmenu` request only in edit mode |
| NodeGesture.UnmountSilencesTimers | src/components/NoteNode.tsx:304-316 | unmounting clears both the long-tap and the double-tap timer, so an expiry that arrives afterwards emits nothing and changes nothing |
| NodeGesture.ArmedSince | src/components/NoteNode.tsx:115-172 | if the long-tap timer is armed after a sequence of events, some earlier event armed it and no later one ended the press |
| NodeGesture.LongTapMenuNeedsHeldPress | src/components/NoteNode.tsx:124-136 | a `longtap` menu request at step k needs an edit-mode primary touch before k, held with no release, cancel, unmount or earlier long-tap menu in between |
| NodeGesture.NoLongTapOutsideEditMode | src/components/NoteNode.tsx:115-117 | outside edit mode the long-tap timer is never armed |
| NodeGesture.NoMenuOutsideEditMode | src/components/NoteNode.tsx:78-88 | outside edit mode no event sequence opens the node menu, by long tap or by right click |
| NodeGesture.DoubleTapWindow | src/components/NoteNode.tsx:93-172 | two touches in a row make a double click, whether or not the first finger is lifted in between; the 200 ms expiry or an edit-mode move between them makes the second touch a new first tap |
| Paper.Initial | src/App.tsx:215-266 | the initial viewport has origin (0, 0) and zoom 1, and once the layout effect has sized it its extent is the paper's size |
| Paper.ResetZoom | src/App.tsx:242-249 | reset sets zoom 1 and the paper's extent and keeps the origin |
| Paper.WheelZoom | src/App.tsx:377-406 | scrolling up divides the zoom by 1.1, down multiplies it, zero keeps zoom and origin; the extent becomes paper size times zoom; the paper point under the pointer stays under the pointer; a positive zoom stays positive |
| Paper.WheelInThenOut | src/App.tsx:383-400 | one tick each way at the same pointer, in either order, restores zoom and origin, and a settled viewport comes back unchanged |
| Paper.WheelAtCentreMovesOrigin | src/App.tsx:393-400 | a tick at the paper's centre moves the origin by half of (new zoom - old zoom) times the paper size, so the origin is not fixed |
| Paper.PanStep | src/App.tsx:279-341 | a pan starts only for the left button or a touch on the paper itself; moves outside a pan change nothing; a move during a pan subtracts the screen delta since the last sample, unscaled; release stops the pan; width, height and zoom never change |
| Paper.PanTelescopes | src/App.tsx:289-335 | over a run of moves during a pan the origin ends up shifted by −(last position − start) |
| Paper.ViewportStaysSettled | src/App.tsx:242-406 | from a settled viewport with positive zoom, any mix of pans, wheel ticks and resets keeps the extent equal to the paper size times a positive zoom |
| Legacy.LegacyEdges | src/App.tsx:166-186 | the legacy edge slot holds a line exactly when `pid` is truthy and some entry carries that id, with the same key and end points as the current rule |
| Legacy.EdgesAreLegacyMinusHidden | src/components/NoteTree.tsx:15-29 | the current edge list is the legacy one with the edges of hidden entries removed |
| Legacy.LegacyNodes | src/App.tsx:194-202 | the legacy renderer draws one node per entry, hidden or not, in order, with its id, position and label; the current renderer's node list is exactly the legacy list read at the drawn positions, with each entry's `expanded` flag added |
| Legacy.NothingHiddenDrawsAll | src/components/NoteTree.tsx:37-46 | with nothing hidden, the current renderer draws the same nodes as the legacy one, in the same order |
| Legacy.LegacyTranslate | src/App.tsx:98-110 | the legacy move equals the subtree drag's move with nothing carried: only the entries with the node's id move, by the raw pointer delta, and every other entry is identical |
| Legacy.LegacyDragStep | src/App.tsx:79-119 | each legacy event does what the subtree drag step does at zoom 1 with nothing carried, once the carried ids are forgotten; so a drag starts only on an edit-mode pointer-down, pointer-up ends it, and only a move during a drag changes the flat tree, and then only the entries with the node's id |

## Left out

- `findDescendantsByIdInFlatTree` is imported by `NoteNode.tsx`, but its body is not part of this model. `NoteNode.Descendants` assumes it returns the entries whose `pid` chain reaches the node, and `NoteNode.DescendantsAreChains` proves the fixpoint computation matches that reading.
- NoteNode.DragStep: the source keeps the previously captured descendants when the context has no flat tree at pointer-down. The model always has a flat tree and always re-captures.
- Stale closures are left out. For example, `onWheel` reads the zoom from its render closure but the origin from the latest state. The model uses one consistent state per event.
- `WheelZoom` requires a positive paper size. The source divides by it, and a zero size gives NaN.
- IEEE-754 rounding is left out; all arithmetic is exact `real`. So `Paper.WheelInThenOut` holds exactly here, but only up to rounding in the browser.
- Timers (`setTimeout` at 200 ms and 500 ms) are modelled as expiry events. An expiry of a cleared timer changes nothing, so real time is not modelled.
- The native mouse `dblclick`, a long press on a mouse, and the browser's synthesized click events after touches are not modelled beyond the `MouseDoubleClick` and `ContextMenu` events.
- DOM plumbing is not modelled:
  - pointer capture, `preventDefault` and passive listeners;
  - `CustomEvent` dispatch and menu placement (`getBoundingClientRect`);
  - `getBBox` text measurement;
  - the window `resize` listener after the first layout.
- `handleClick` choosing a new parent (src/components/NoteNode.tsx:174-178) is not modelled. It only forwards an id to a callback that is not part of this model.
- The menu actions are not modelled: delete-subtree, reparent and add-child are not implemented in the modelled files. Pinch zoom is only a TODO in the source.
- The note list page, the modal, the menu and button widgets, routing and the mock data are presentation or remote I/O, and are not modelled.
- `createLine` and `createCircle` only build SVG elements. A line is modelled by its key and end points.

=== FILE: legacy.dfy ===
/** The older inline `NoteTree` and `NoteNode` still defined in `App.tsx`: every node
    is drawn, edges ignore `visible`, and a drag moves the one node it started on. */
module Legacy {
  import opened Types
  import NoteTree
  import NoteNode

  /** The legacy edge list: a line exactly when `pid` is truthy and some entry
      carries it as its id, from the last such entry to the child. */
  function LegacyEdges(fs: seq<Entry>): (r: seq<Option<NoteTree.Line>>)
    ensures |r| == |fs|
    ensures forall i :: 0 <= i < |fs| ==>
      (r[i].Some? <==> HasParentRef(fs[i]) && exists j :: 0 <= j < |fs| && fs[j].id == fs[i].pid.value)
    ensures forall i :: 0 <= i < |fs| && r[i].Some? ==>
      fs[i].pid.Some? &&
      (exists j :: NoteTree.IsLastWithId(fs, j) && fs[j].id == fs[i].pid.value
        && r[i].value == NoteTree.Line(NoteTree.LineKey(fs[i].pid.value, fs[i].id), fs[j].x, fs[j].y, fs[i].x, fs[i].y))
  {
    var index := NoteTree.IndexById(fs);
    seq(|fs|, i requires 0 <= i < |fs| => LegacyEdgeFor(index, fs[i]))
  }

  function LegacyEdgeFor(index: map<int, Entry>, e: Entry): Option<NoteTree.Line> {
    if HasParentRef(e) && e.pid.value in index then
      var parent := index[e.pid.value];
      Some(NoteTree.Line(NoteTree.LineKey(parent.id, e.id), parent.x, parent.y, e.x, e.y))
    else None
  }

  /** The current edge rule is the legacy one with hidden children's edges removed. */
  lemma EdgesAreLegacyMinusHidden(fs: seq<Entry>)
    ensures forall i :: 0 <= i < |fs| ==>
      NoteTree.Edges(fs)[i] == if NotHidden(fs[i]) then LegacyEdges(fs)[i] else None
  {
    var index := NoteTree.IndexById(fs);
    forall i | 0 <= i < |fs|
      ensures NoteTree.Edges(fs)[i] == if NotHidden(fs[i]) then LegacyEdges(fs)[i] else None
    {
      assert NoteTree.Edges(fs)[i] == NoteTree.EdgeFor(index, fs[i]);
      assert LegacyEdges(fs)[i] == LegacyEdgeFor(index, fs[i]);
    }
  }

  /** The props the legacy `NoteNode` receives: no `expanded` flag. */
  datatype LegacyProps = LegacyProps(id: int, x: real, y: real, text: string)

  /** The legacy node list: one node per entry, hidden or not, in flat-tree order.
      The current renderer's node list is this one read at the drawn positions only,
      each node also given the entry's `expanded` flag. */
  function LegacyNodes(fs: seq<Entry>): (r: seq<LegacyProps>)
    ensures |r| == |fs|
    ensures forall i :: 0 <= i < |fs| ==>
      r[i].id == fs[i].id && r[i].x == fs[i].x && r[i].y == fs[i].y && r[i].text == fs[i].text
    ensures var idx := NoteTree.DrawnIndices(fs);
      |NoteTree.DrawnNodes(fs)| == |idx|
      && forall k :: 0 <= k < |idx| ==>
        NoteTree.DrawnNodes(fs)[k]
          == NoteTree.NodeProps(r[idx[k]].id, r[idx[k]].x, r[idx[k]].y, r[idx[k]].text, fs[idx[k]].expanded)
  {
    NoteTree.DrawnNodesAreSelection(fs);
    seq(|fs|, i requires 0 <= i < |fs| => LegacyProps(fs[i].id, fs[i].x, fs[i].y, fs[i].text))
  }

  /** With nothing hidden, the current renderer draws the same nodes as the legacy one,
      in the same order. */
  lemma NothingHiddenDrawsAll(fs: seq<Entry>)
    requires forall i :: 0 <= i < |fs| ==> NotHidden(fs[i])
    ensures |NoteTree.DrawnNodes(fs)| == |LegacyNodes(fs)|
    ensures forall k :: 0 <= k < |fs| ==>
      var n := NoteTree.DrawnNodes(fs)[k];
      var l := LegacyNodes(fs)[k];
      n.id == l.id && n.x == l.x && n.y == l.y && n.text == l.text
  {
    NoteTree.EveryPositionDrawn(fs, 0);
    assert NoteTree.DrawnIndices(fs) == NoteTree.DrawnFrom(fs, 0);
  }

  /** The legacy `onPointerMove` map: only the entry with the node's id moves, by the
      raw pointer delta. It is the subtree drag's move with nothing carried. */
  function LegacyTranslate(fs: seq<Entry>, id: int, dx: real, dy: real): (r: seq<Entry>)
    ensures r == NoteNode.Translate(fs, id, {}, dx, dy)
  {
    var r := seq(|fs|, i requires 0 <= i < |fs| =>
      if fs[i].id == id then fs[i].(x := fs[i].x + dx, y := fs[i].y + dy) else fs[i]);
    var bare := NoteNode.Translate(fs, id, {}, dx, dy);
    assert forall i :: 0 <= i < |fs| ==> (NoteNode.Moves(fs[i], id, {}) <==> fs[i].id == id);
    assert forall i :: 0 <= i < |fs| ==> r[i] == bare[i];
    r
  }

  /** `positionRef` of the legacy node. */
  datatype LegacyDragState = LegacyDragState(dragging: bool, startX: real, startY: real)

  /** One pointer event for the legacy node `id`. It is the subtree drag step without a
      zoom (so at scale 1) and with nothing carried, once the carried ids are forgotten:
      a drag starts only on an edit-mode pointer-down, only a move during a drag changes
      the flat tree, and then only the entry with the node's id. */
  function LegacyDragStep(id: int, editMode: bool, s: LegacyDragState, fs: seq<Entry>, ev: NoteNode.DragEvent): (r: (LegacyDragState, seq<Entry>))
    ensures var d := NoteNode.DragStep(NoteNode.DragContext(id, editMode, None),
                                       NoteNode.DragState(s.dragging, s.startX, s.startY, {}), fs, ev);
      r == (Forget(d.0), d.1)
    ensures !s.dragging && r.0.dragging ==> ev.Down? && editMode
    ensures ev.Up? ==> !r.0.dragging
    ensures r.1 != fs ==> ev.Move? && s.dragging
    ensures |r.1| == |fs|
    ensures forall i :: 0 <= i < |fs| && fs[i].id != id ==> r.1[i] == fs[i]
  {
    match ev
    case Down(cx, cy) =>
      if !editMode then (s, fs) else (LegacyDragState(true, cx, cy), fs)
    case Move(cx, cy) =>
      if !s.dragging then (s, fs)
      else (s.(startX := cx, startY := cy), LegacyTranslate(fs, id, cx - s.startX, cy - s.startY))
    case Up =>
      (s.(dragging := false), fs)
  }

  /** The legacy drag state is the subtree drag's state without the carried ids. */
  function Forget(s: NoteNode.DragState): LegacyDragState {
    LegacyDragState(s.dragging, s.startX, s.startY)
  }
}

=== FILE: lib.dfy ===
/** `flattenTree`: the depth-first flattening of a nested tree into a flat list
    with parent references, and what its output looks like. */
module Lib {
  import opened Types

  /** Number of nodes in a nested tree. */
  function Size(t: Tree): (n: nat)
    ensures n >= 1
    decreases t, 1
  {
    1 + SizeAll(t.children)
  }

  /** Number of nodes in a forest of sibling trees. */
  function SizeAll(cs: seq<Tree>): nat
    decreases cs, 0
  {
    if cs == [] then 0 else Size(cs[0]) + SizeAll(cs[1..])
  }

  /** The child as handed to the recursive call: `{ ...child, pid: node.id }`. */
  function WithPid(c: Tree, p: int): (r: Tree)
    ensures r.entry.id == c.entry.id && r.children == c.children
    ensures Size(r) == Size(c)
  {
    Tree(c.entry.(pid := Some(p)), c.children)
  }

  /** `flattenTree(node, result)`: pushes a copy of `node` without `children`, then
      flattens every child, re-tagged with `pid = node.id`, into the same list. */
  function FlattenTree(t: Tree, acc: seq<Entry>): (r: seq<Entry>)
    ensures |r| == |acc| + Size(t)
    ensures r[..|acc|] == acc
    ensures r[|acc|] == t.entry
    decreases Size(t), 1
  {
    FlattenChildren(t.children, t.entry.id, acc + [t.entry])
  }

  /** The `node.children.forEach` loop of `flattenTree`, children tagged with parent id `p`. */
  function FlattenChildren(cs: seq<Tree>, p: int, acc: seq<Entry>): (r: seq<Entry>)
    ensures |r| == |acc| + SizeAll(cs)
    ensures r[..|acc|] == acc
    decreases SizeAll(cs), 2
  {
    if cs == [] then acc
    else
      var next := FlattenTree(WithPid(cs[0], p), acc);
      assert next[..|acc|] == acc;
      var r := FlattenChildren(cs[1..], p, next);
      assert r[..|acc|] == r[..|next|][..|acc|];
      r
  }

  /** Reference pre-order without an accumulator: a node, then each child's
      subtree in source order, every child tagged with its parent's id. */
  function Preorder(t: Tree): seq<Entry>
    decreases Size(t), 1
  {
    [t.entry] + PreorderAll(t.children, t.entry.id)
  }

  /** The pre-order of sibling subtrees under a parent with id `p`, concatenated. */
  function PreorderAll(cs: seq<Tree>, p: int): seq<Entry>
    decreases SizeAll(cs), 2
  {
    if cs == [] then [] else Preorder(WithPid(cs[0], p)) + PreorderAll(cs[1..], p)
  }

  /** The accumulator is kept as a prefix and the rest is exactly the pre-order. */
  lemma {:induction false} FlattenIsPreorder(t: Tree, acc: seq<Entry>)
    ensures FlattenTree(t, acc) == acc + Preorder(t)
    decreases Size(t), 1
  {
    FlattenChildrenIsPreorder(t.children, t.entry.id, acc + [t.entry]);
  }

  lemma {:induction false} FlattenChildrenIsPreorder(cs: seq<Tree>, p: int, acc: seq<Entry>)
    ensures FlattenChildren(cs, p, acc) == acc + PreorderAll(cs, p)
    decreases SizeAll(cs), 2
  {
    if cs != [] {
      var next := FlattenTree(WithPid(cs[0], p), acc);
      FlattenIsPreorder(WithPid(cs[0], p), acc);
      FlattenChildrenIsPreorder(cs[1..], p, next);
      assert acc + Preorder(WithPid(cs[0], p)) + PreorderAll(cs[1..], p)
          == acc + (Preorder(WithPid(cs[0], p)) + PreorderAll(cs[1..], p));
    }
  }

  // ---------------------------------------------------------------------------
  // Parent references

  /** The (parent id, child id) pairs of the nesting below a parent with id `p`. */
  function ChildLinks(cs: seq<Tree>, p: int): set<(int, int)>
    decreases SizeAll(cs)
  {
    if cs == [] then {}
    else
      assert SizeAll(cs[0].children) < Size(cs[0]);
      {(p, cs[0].entry.id)} + ChildLinks(cs[0].children, cs[0].entry.id) + ChildLinks(cs[1..], p)
  }

  /** The (pid, id) pairs recorded in a flat list. */
  function LinksOf(es: seq<Entry>): set<(int, int)> {
    set e | e in es && e.pid.Some? :: (e.pid.value, e.id)
  }

  lemma LinksOfConcat(a: seq<Entry>, b: seq<Entry>)
    ensures LinksOf(a + b) == LinksOf(a) + LinksOf(b)
  {
    assert forall e :: e in a + b <==> e in a || e in b;
  }

  lemma {:induction false} PreorderAllLinks(cs: seq<Tree>, p: int)
    ensures forall e :: e in PreorderAll(cs, p) ==> e.pid.Some?
    ensures LinksOf(PreorderAll(cs, p)) == ChildLinks(cs, p)
    decreases SizeAll(cs)
  {
    if cs != [] {
      var c := cs[0];
      var head := [c.entry.(pid := Some(p))];
      var below := PreorderAll(c.children, c.entry.id);
      var rest := PreorderAll(cs[1..], p);
      assert SizeAll(c.children) < Size(c);
      PreorderAllLinks(c.children, c.entry.id);
      PreorderAllLinks(cs[1..], p);
      assert PreorderAll(cs, p) == head + below + rest;
      LinksOfConcat(head, below);
      LinksOfConcat(head + below, rest);
      assert LinksOf(head) == {(p, c.entry.id)};
    }
  }

  /** Every entry after the root carries a `pid`, and the (pid, id) pairs of those
      entries are exactly the nesting's (parent, child) pairs: each child's own
      `pid`, whatever it was, is overridden by the id of the node it sits under. */
  lemma FlattenLinks(t: Tree)
    ensures var r := FlattenTree(t, []);
      && (forall i :: 1 <= i < |r| ==> r[i].pid.Some?)
      && LinksOf(r[1..]) == ChildLinks(t.children, t.entry.id)
  {
    var r := FlattenTree(t, []);
    FlattenIsPreorder(t, []);
    assert r[1..] == PreorderAll(t.children, t.entry.id);
    PreorderAllLinks(t.children, t.entry.id);
    assert forall i :: 1 <= i < |r| ==> r[i] in r[1..];
  }

  // ---------------------------------------------------------------------------
  // Order: siblings are contiguous and in source order

  lemma {:induction false} PreorderSize(t: Tree)
    ensures |Preorder(t)| == Size(t)
  {
    FlattenIsPreorder(t, []);
  }

  lemma {:induction false} PreorderAllSize(cs: seq<Tree>, p: int)
    ensures |PreorderAll(cs, p)| == SizeAll(cs)
  {
    FlattenChildrenIsPreorder(cs, p, []);
  }

  lemma {:induction false} PreorderAllSplit(cs: seq<Tree>, p: int, k: nat)
    requires k < |cs|
    ensures PreorderAll(cs, p)
         == PreorderAll(cs[..k], p) + Preorder(WithPid(cs[k], p)) + PreorderAll(cs[k + 1..], p)
    ensures SizeAll(cs[..k + 1]) == SizeAll(cs[..k]) + Size(cs[k])
    decreases k
  {
    if k == 0 {
      assert cs[..0] == [];
      assert cs[..1][1..] == [];
      assert cs[1..] == cs[k + 1..];
    } else {
      PreorderAllSplit(cs[1..], p, k - 1);
      assert cs[1..][..k - 1] == cs[..k][1..];
      assert cs[1..][..k] == cs[..k + 1][1..];
      assert cs[1..][k - 1] == cs[k];
      assert cs[1..][k..] == cs[k + 1..];
      assert cs[..k][0] == cs[0];
    }
  }

  /** The subtree of the k-th child occupies one contiguous block of the output,
      after the root and after the blocks of all earlier siblings. */
  lemma SubtreeContiguous(t: Tree, k: nat)
    requires k < |t.children|
    ensures var r := FlattenTree(t, []);
      var start := 1 + SizeAll(t.children[..k]);
      && start + Size(t.children[k]) <= |r|
      && r[start..start + Size(t.children[k])] == FlattenTree(WithPid(t.children[k], t.entry.id), [])
  {
    var cs := t.children;
    var p := t.entry.id;
    var c := WithPid(cs[k], p);
    var before := [t.entry] + PreorderAll(cs[..k], p);
    var block := Preorder(c);
    var after := PreorderAll(cs[k + 1..], p);
    BlockLayout(t, k);
    PreorderAllSize(cs[..k], p);
    PreorderSize(c);
    FlattenIsPreorder(c, []);
    SliceMiddle(before, block, after);
  }

  /** The flat list of a tree cut at its k-th child: the root and the earlier
      siblings' subtrees, the k-th child's subtree, the later siblings' subtrees. */
  lemma BlockLayout(t: Tree, k: nat)
    requires k < |t.children|
    ensures FlattenTree(t, [])
         == [t.entry] + PreorderAll(t.children[..k], t.entry.id)
          + Preorder(WithPid(t.children[k], t.entry.id))
          + PreorderAll(t.children[k + 1..], t.entry.id)
  {
    var cs := t.children;
    var p := t.entry.id;
    var a := PreorderAll(cs[..k], p);
    var b := Preorder(WithPid(cs[k], p));
    var c := PreorderAll(cs[k + 1..], p);
    FlattenIsPreorder(t, []);
    assert [] + Preorder(t) == Preorder(t);
    PreorderAllSplit(cs, p, k);
    assert Preorder(t) == [t.entry] + (a + b + c);
    ConcatAssoc([t.entry], a + b, c);
    ConcatAssoc([t.entry], a, b);
  }

  lemma ConcatAssoc<T>(a: seq<T>, b: seq<T>, c: seq<T>)
    ensures a + (b + c) == a + b + c
  {
  }

  lemma SliceMiddle<T>(a: seq<T>, b: seq<T>, c: seq<T>)
    ensures (a + b + c)[|a|..|a| + |b|] == b
  {
  }

  // ---------------------------------------------------------------------------
  // Ids

  /** The ids of all nodes of a nested tree. */
  function IdSet(t: Tree): set<int>
    decreases Size(t), 1
  {
    {t.entry.id} + IdSetAll(t.children)
  }

  function IdSetAll(cs: seq<Tree>): set<int>
    decreases SizeAll(cs), 2
  {
    if cs == [] then {} else IdSet(cs[0]) + IdSetAll(cs[1..])
  }

  /** No id occurs twice anywhere in the nested tree. */
  predicate DistinctIds(t: Tree)
    decreases Size(t), 1
  {
    t.entry.id !in IdSetAll(t.children) && DistinctAll(t.children)
  }

  predicate DistinctAll(cs: seq<Tree>)
    decreases SizeAll(cs), 2
  {
    cs == [] || (DistinctIds(cs[0]) && IdSet(cs[0]) !! IdSetAll(cs[1..]) && DistinctAll(cs[1..]))
  }

  lemma IdsOfConcat(a: seq<Entry>, b: seq<Entry>)
    ensures IdsOf(a + b) == IdsOf(a) + IdsOf(b)
  {
    assert forall e :: e in a + b <==> e in a || e in b;
  }

  lemma UniqueConcat(a: seq<Entry>, b: seq<Entry>)
    requires UniqueIds(a) && UniqueIds(b) && IdsOf(a) !! IdsOf(b)
    ensures UniqueIds(a + b)
  {
    var ab := a + b;
    forall i, j | 0 <= i < j < |ab|
      ensures ab[i].id != ab[j].id
    {
      if j >= |a| && i < |a| {
        assert a[i] in a && ab[i].id in IdsOf(a);
        assert b[j - |a|] in b && ab[j].id in IdsOf(b);
      }
    }
  }

  lemma {:induction false} PreorderIds(t: Tree)
    ensures IdsOf(Preorder(t)) == IdSet(t)
    ensures DistinctIds(t) ==> UniqueIds(Preorder(t))
    decreases Size(t), 1
  {
    PreorderAllIds(t.children, t.entry.id);
    IdsOfConcat([t.entry], PreorderAll(t.children, t.entry.id));
    if DistinctIds(t) {
      UniqueConcat([t.entry], PreorderAll(t.children, t.entry.id));
    }
  }

  lemma {:induction false} PreorderAllIds(cs: seq<Tree>, p: int)
    ensures IdsOf(PreorderAll(cs, p)) == IdSetAll(cs)
    ensures DistinctAll(cs) ==> UniqueIds(PreorderAll(cs, p))
    decreases SizeAll(cs), 2
  {
    if cs != [] {
      var c := WithPid(cs[0], p);
      assert IdSet(c) == IdSet(cs[0]);
      assert DistinctIds(c) == DistinctIds(cs[0]);
      PreorderIds(c);
      PreorderAllIds(cs[1..], p);
      IdsOfConcat(Preorder(c), PreorderAll(cs[1..], p));
      if DistinctAll(cs) {
        UniqueConcat(Preorder(c), PreorderAll(cs[1..], p));
      }
    }
  }

  /** Flattening keeps exactly the tree's ids, and distinct ids in the nested
      tree stay distinct in the flat list. */
  lemma FlattenIds(t: Tree)
    ensures IdsOf(FlattenTree(t, [])) == IdSet(t)
    ensures DistinctIds(t) ==> UniqueIds(FlattenTree(t, []))
  {
    FlattenIsPreorder(t, []);
    PreorderIds(t);
  }

  // ---------------------------------------------------------------------------
  // Collecting children back by `pid`

  /** The entries whose `pid` is `p`, in list order. */
  function ChildrenOf(es: seq<Entry>, p: int): seq<Entry> {
    if es == [] then []
    else (if es[0].pid == Some(p) then [es[0]] else []) + ChildrenOf(es[1..], p)
  }

  /** The children's own records as the flattening emits them. */
  function Tagged(cs: seq<Tree>, p: int): seq<Entry> {
    seq(|cs|, i requires 0 <= i < |cs| => cs[i].entry.(pid := Some(p)))
  }

  lemma {:induction false} ChildrenOfConcat(a: seq<Entry>, b: seq<Entry>, p: int)
    ensures ChildrenOf(a + b, p) == ChildrenOf(a, p) + ChildrenOf(b, p)
    decreases |a|
  {
    if a != [] {
      assert (a + b)[0] == a[0];
      assert (a + b)[1..] == a[1..] + b;
      ChildrenOfConcat(a[1..], b, p);
      var h := if a[0].pid == Some(p) then [a[0]] else [];
      assert h + (ChildrenOf(a[1..], p) + ChildrenOf(b, p)) == (h + ChildrenOf(a[1..], p)) + ChildrenOf(b, p);
    } else {
      assert a + b == b;
    }
  }

  lemma {:induction false} ChildrenOfNone(es: seq<Entry>, p: int)
    requires forall e :: e in es ==> e.pid != Some(p)
    ensures ChildrenOf(es, p) == []
    decreases |es|
  {
    if es != [] {
      assert es[0] in es;
      assert forall e :: e in es[1..] ==> e in es;
      ChildrenOfNone(es[1..], p);
    }
  }

  lemma {:induction false} PreorderAllPids(cs: seq<Tree>, p: int)
    ensures forall e :: e in PreorderAll(cs, p) ==>
      e.pid.Some? && (e.pid.value == p || e.pid.value in IdSetAll(cs))
    decreases SizeAll(cs)
  {
    if cs != [] {
      var c := cs[0];
      assert SizeAll(c.children) < Size(c);
      PreorderAllPids(c.children, c.entry.id);
      PreorderAllPids(cs[1..], p);
      assert PreorderAll(cs, p)
          == [c.entry.(pid := Some(p))] + PreorderAll(c.children, c.entry.id) + PreorderAll(cs[1..], p);
    }
  }

  lemma {:induction false} ChildrenOfPreorderAll(cs: seq<Tree>, p: int)
    requires p !in IdSetAll(cs)
    ensures ChildrenOf(PreorderAll(cs, p), p) == Tagged(cs, p)
    decreases |cs|
  {
    if cs != [] {
      var c := cs[0];
      var below := PreorderAll(c.children, c.entry.id);
      PreorderAllPids(c.children, c.entry.id);
      ChildrenOfNone(below, p);
      ChildrenOfPreorderAll(cs[1..], p);
      ChildrenOfConcat([c.entry.(pid := Some(p))] + below, PreorderAll(cs[1..], p), p);
      ChildrenOfConcat([c.entry.(pid := Some(p))], below, p);
      assert Tagged(cs, p) == [c.entry.(pid := Some(p))] + Tagged(cs[1..], p);
    }
  }

  /** Collecting the flat entries whose `pid` is the root's id gives back the
      root's children, in source order, each re-tagged with that `pid`. */
  lemma RootChildrenRecovered(t: Tree)
    requires t.entry.id !in IdSetAll(t.children)
    requires t.entry.pid != Some(t.entry.id)
    ensures ChildrenOf(FlattenTree(t, []), t.entry.id) == Tagged(t.children, t.entry.id)
  {
    FlattenIsPreorder(t, []);
    ChildrenOfConcat([t.entry], PreorderAll(t.children, t.entry.id), t.entry.id);
    ChildrenOfPreorderAll(t.children, t.entry.id);
  }

  /** `s` occurs as a node of `t` with these children, up to the `pid` on its own
      record (which the flattening overwrites for every node but the root). */
  predicate Within(s: Tree, t: Tree)
    decreases t
  {
    (s.entry.id == t.entry.id && s.children == t.children)
    || exists i :: 0 <= i < |t.children| && Within(s, t.children[i])
  }

  lemma {:induction false} WithinIds(s: Tree, t: Tree)
    requires Within(s, t)
    ensures s.entry.id in IdSet(t)
    decreases t
  {
    if s.entry.id != t.entry.id {
      var i :| 0 <= i < |t.children| && Within(s, t.children[i]);
      WithinIds(s, t.children[i]);
      IdSetAllHas(t.children, i);
    }
  }

  lemma {:induction false} IdSetAllHas(cs: seq<Tree>, i: nat)
    requires i < |cs|
    ensures IdSet(cs[i]) <= IdSetAll(cs)
    decreases i
  {
    if i > 0 {
      IdSetAllHas(cs[1..], i - 1);
    }
  }

  lemma {:induction false} DistinctAllHas(cs: seq<Tree>, i: nat)
    requires i < |cs| && DistinctAll(cs)
    ensures DistinctIds(cs[i])
    decreases i
  {
    if i > 0 {
      DistinctAllHas(cs[1..], i - 1);
    }
  }

  /** A subtree none of whose ids is `q`, under a parent other than `q`, contributes
      no entry with `pid` `q`. */
  lemma NoChildrenOutside(t: Tree, q: int)
    requires q !in IdSet(t) && t.entry.pid != Some(q)
    ensures ChildrenOf(Preorder(t), q) == []
  {
    var below := PreorderAll(t.children, t.entry.id);
    PreorderAllPids(t.children, t.entry.id);
    ChildrenOfNone(below, q);
    ChildrenOfConcat([t.entry], below, q);
  }

  lemma {:induction false} PreorderChildren(t: Tree, s: Tree)
    requires DistinctIds(t) && Within(s, t) && t.entry.pid != Some(s.entry.id)
    ensures ChildrenOf(Preorder(t), s.entry.id) == Tagged(s.children, s.entry.id)
    decreases Size(t), 1
  {
    var q := s.entry.id;
    var below := PreorderAll(t.children, t.entry.id);
    ChildrenOfConcat([t.entry], below, q);
    assert ChildrenOf([t.entry], q) == [];
    if q == t.entry.id {
      if s.children != t.children {
        var i :| 0 <= i < |t.children| && Within(s, t.children[i]);
        WithinIds(s, t.children[i]);
        IdSetAllHas(t.children, i);
        assert false;
      }
      ChildrenOfPreorderAll(t.children, q);
    } else {
      var i :| 0 <= i < |t.children| && Within(s, t.children[i]);
      WithinIds(s, t.children[i]);
      IdSetAllHas(t.children, i);
      PreorderAllChildren(t.children, t.entry.id, s, i);
    }
  }

  lemma {:induction false} PreorderAllChildren(cs: seq<Tree>, p: int, s: Tree, i: nat)
    requires DistinctAll(cs) && p !in IdSetAll(cs)
    requires i < |cs| && Within(s, cs[i])
    ensures ChildrenOf(PreorderAll(cs, p), s.entry.id) == Tagged(s.children, s.entry.id)
    decreases SizeAll(cs), 2
  {
    var q := s.entry.id;
    var c := WithPid(cs[0], p);
    var rest := PreorderAll(cs[1..], p);
    ChildrenOfConcat(Preorder(c), rest, q);
    WithinIds(s, cs[i]);
    IdSetAllHas(cs, i);
    if i == 0 {
      assert Within(s, c);
      assert DistinctIds(c);
      assert SizeAll(c.children) < Size(cs[0]);
      PreorderChildren(c, s);
      assert q !in IdSetAll(cs[1..]);
      PreorderAllPids(cs[1..], p);
      ChildrenOfNone(rest, q);
    } else {
      IdSetAllHas(cs[1..], i - 1);
      assert q in IdSetAll(cs[1..]);
      assert q !in IdSet(c);
      NoChildrenOutside(c, q);
      PreorderAllChildren(cs[1..], p, s, i - 1);
    }
  }

  /** Collecting the flat entries whose `pid` is the id of any node of the tree gives
      back that node's children, in source order, each re-tagged with that `pid`; the
      root keeps its own `pid`, which must not name that node. */
  lemma ChildrenRecovered(t: Tree, s: Tree)
    requires DistinctIds(t) && Within(s, t) && t.entry.pid != Some(s.entry.id)
    ensures ChildrenOf(FlattenTree(t, []), s.entry.id) == Tagged(s.children, s.entry.id)
  {
    FlattenIsPreorder(t, []);
    assert [] + Preorder(t) == Preorder(t);
    PreorderChildren(t, s);
  }
}

=== FILE: nodegesture.dfy ===
/** The tap, double-tap and long-tap handlers of a `NoteNode`, as one event-driven
    state machine. Timers are not run: the 200 ms double-tap timer and the 500 ms
    long-tap timer firing are input events, and a timer that was cleared never fires
    (its expiry event leaves the state unchanged and emits nothing). */
module NodeGesture {

  /** `e.pointerType`. */
  datatype PointerKind = Mouse | Touch | Pen

  /** `firstTapRef` and `tapInfoRef`: whether a first tap is waiting for a second,
      which timers are pending, and where the long tap started. */
  datatype TapState = TapState(
    firstTap: bool,
    doubleTapTimer: bool,
    longTapTimer: bool,
    startX: real,
    startY: real)

  datatype TapEvent =
    | PointerDown(kind: PointerKind, isPrimary: bool, clientX: real, clientY: real)
    | PointerMove(clientX: real, clientY: real)
    | PointerUp
    | PointerCancel
    | DoubleTapTimeout
    | LongTapTimeout
    | ContextMenu
    | MouseDoubleClick
    | Unmount

  /** The `source` of a `nodemenu` event: `"longtap"` or `"contextmenu"`. */
  datatype MenuSource = LongTap | RightClick

  /** What a handler emits: nothing, a call to `handleDoubleClick`, or a `nodemenu` event. */
  datatype Signal = Quiet | DoubleClick | OpenMenu(nodeId: int, source: MenuSource)

  /** A move further than this on either axis is a drag, not a long tap. */
  const MoveTolerance: real := 10.0

  function Abs(v: real): real {
    if v < 0.0 then -v else v
  }

  /** The events that end a press as far as the long-tap timer is concerned. */
  predicate EndsPress(ev: TapEvent) {
    ev.PointerUp? || ev.PointerCancel? || ev.Unmount? || ev.LongTapTimeout?
  }

  /** A pointer-down that arms the long-tap timer (when no first tap is pending). */
  predicate ArmsLongTap(ev: TapEvent, editMode: bool) {
    ev.PointerDown? && ev.kind != Mouse && ev.isPrimary && editMode
  }

  /** One event for the node `nodeId`, with `editMode` read from the context. */
  function TapStep(nodeId: int, editMode: bool, s: TapState, ev: TapEvent): (r: (TapState, Signal))
    // Mouse pointer-downs are left to the native mouse events; moves, releases and
    // cancels are not filtered by pointer type.
    ensures ev.PointerDown? && ev.kind == Mouse ==> r == (s, Quiet)
    // A second tap while the first is pending is a double click and arms nothing.
    ensures ev.PointerDown? && ev.kind != Mouse && s.firstTap ==> r == (s.(firstTap := false), DoubleClick)
    // A first tap opens the double-tap window; in edit mode a primary pointer also
    // (re)starts the long-tap timer from its position.
    ensures ev.PointerDown? && ev.kind != Mouse && !s.firstTap ==>
      && r.1 == Quiet && r.0.firstTap && r.0.doubleTapTimer
      && (ArmsLongTap(ev, editMode) ==> r.0.longTapTimer && r.0.startX == ev.clientX && r.0.startY == ev.clientY)
      && (!ArmsLongTap(ev, editMode) ==> r.0.longTapTimer == s.longTapTimer)
    // The long-tap timer is only ever armed by such a first tap.
    ensures !s.longTapTimer && r.0.longTapTimer ==> ArmsLongTap(ev, editMode) && !s.firstTap
    // Moves count only in edit mode; there they end the double-tap window and cancel
    // the long tap once the pointer has left the tolerance box.
    ensures ev.PointerMove? && !editMode ==> r == (s, Quiet)
    ensures ev.PointerMove? && editMode ==>
      && r.1 == Quiet && !r.0.firstTap
      && (r.0.longTapTimer <==>
            s.longTapTimer && Abs(ev.clientX - s.startX) <= MoveTolerance && Abs(ev.clientY - s.startY) <= MoveTolerance)
    ensures EndsPress(ev) ==> !r.0.longTapTimer
    // A release or cancel only disarms the long tap: the double-tap window stays open.
    ensures ev.PointerUp? || ev.PointerCancel? ==> r == (s.(longTapTimer := false), Quiet)
    // The expiry of a timer that is not armed changes nothing.
    ensures ev.DoubleTapTimeout? && !s.doubleTapTimer ==> r == (s, Quiet)
    ensures ev.LongTapTimeout? && !s.longTapTimer ==> r == (s, Quiet)
    ensures ev.DoubleTapTimeout? && s.doubleTapTimer ==> !r.0.firstTap && !r.0.doubleTapTimer
    ensures ev.LongTapTimeout? ==> (r.1 == OpenMenu(nodeId, LongTap) <==> s.longTapTimer)
    ensures ev.ContextMenu? ==> r == (s, if editMode then OpenMenu(nodeId, RightClick) else Quiet)
    ensures ev.Unmount? ==> !r.0.longTapTimer && !r.0.doubleTapTimer
    // A double click comes exactly from a second non-mouse tap inside the window or
    // from the native double click.
    ensures r.1 == DoubleClick <==> (ev.PointerDown? && ev.kind != Mouse && s.firstTap) || ev.MouseDoubleClick?
    // Menus come only from an armed long tap or an edit-mode right click.
    ensures r.1.OpenMenu? ==> r.1.nodeId == nodeId && ((ev.LongTapTimeout? && s.longTapTimer) || (ev.ContextMenu? && editMode))
  {
    match ev
    case PointerDown(kind, primary, cx, cy) =>
      if kind == Mouse then (s, Quiet)
      else if s.firstTap then (s.(firstTap := false), DoubleClick)
      else
        var waiting := s.(firstTap := true, doubleTapTimer := true);
        if !editMode || !primary then (waiting, Quiet)
        else (waiting.(longTapTimer := true, startX := cx, startY := cy), Quiet)
    case PointerMove(cx, cy) =>
      if !editMode then (s, Quiet)
      else
        var moved := s.(firstTap := false);
        if moved.longTapTimer && (Abs(cx - moved.startX) > MoveTolerance || Abs(cy - moved.startY) > MoveTolerance)
        then (moved.(longTapTimer := false), Quiet)
        else (moved, Quiet)
    case PointerUp => (s.(longTapTimer := false), Quiet)
    case PointerCancel => (s.(longTapTimer := false), Quiet)
    case DoubleTapTimeout =>
      if s.doubleTapTimer then (s.(doubleTapTimer := false, firstTap := false), Quiet) else (s, Quiet)
    case LongTapTimeout =>
      if s.longTapTimer then (s.(longTapTimer := false), OpenMenu(nodeId, LongTap)) else (s, Quiet)
    case ContextMenu => (s, if editMode then OpenMenu(nodeId, RightClick) else Quiet)
    case MouseDoubleClick => (s, DoubleClick)
    case Unmount => (s.(longTapTimer := false, doubleTapTimer := false), Quiet)
  }

  /** The state after feeding `evs` to `TapStep`, starting from `s`. */
  function StateAfter(nodeId: int, editMode: bool, s: TapState, evs: seq<TapEvent>): TapState
    decreases |evs|
  {
    if evs == [] then s
    else TapStep(nodeId, editMode, StateAfter(nodeId, editMode, s, evs[..|evs| - 1]), evs[|evs| - 1]).0
  }

  /** What the `k`-th event of `evs` emits. */
  function Emitted(nodeId: int, editMode: bool, s: TapState, evs: seq<TapEvent>, k: nat): Signal
    requires k < |evs|
  {
    TapStep(nodeId, editMode, StateAfter(nodeId, editMode, s, evs[..k]), evs[k]).1
  }

  lemma {:induction false} ArmedSince(nodeId: int, editMode: bool, s: TapState, evs: seq<TapEvent>)
    requires !s.longTapTimer
    requires StateAfter(nodeId, editMode, s, evs).longTapTimer
    ensures exists j ::
              && 0 <= j < |evs| && ArmsLongTap(evs[j], editMode)
              && forall m :: j < m < |evs| ==> !EndsPress(evs[m])
    decreases |evs|
  {
    var n := |evs| - 1;
    var prev := evs[..n];
    var before := StateAfter(nodeId, editMode, s, prev);
    if before.longTapTimer {
      ArmedSince(nodeId, editMode, s, prev);
      var j :| 0 <= j < |prev| && ArmsLongTap(prev[j], editMode)
        && forall m :: j < m < |prev| ==> !EndsPress(prev[m]);
      assert evs[j] == prev[j];
      assert forall m :: j < m < n ==> evs[m] == prev[m];
      assert !EndsPress(evs[n]);
      assert 0 <= j < |evs| && ArmsLongTap(evs[j], editMode)
        && forall m :: j < m < |evs| ==> !EndsPress(evs[m]);
    } else {
      assert ArmsLongTap(evs[n], editMode);
    }
  }

  /** A long-tap menu opens only if, some time before, an edit-mode primary touch went
      down and since then the pointer was neither lifted nor cancelled, the node was
      not unmounted and no earlier long-tap menu consumed that press. */
  lemma LongTapMenuNeedsHeldPress(nodeId: int, editMode: bool, s: TapState, evs: seq<TapEvent>, k: nat)
    requires !s.longTapTimer
    requires k < |evs| && Emitted(nodeId, editMode, s, evs, k) == OpenMenu(nodeId, LongTap)
    ensures exists j ::
              && 0 <= j < k && ArmsLongTap(evs[j], editMode)
              && forall m :: j < m < k ==> !EndsPress(evs[m])
  {
    var prefix := evs[..k];
    ArmedSince(nodeId, editMode, s, prefix);
    var j :| 0 <= j < |prefix| && ArmsLongTap(prefix[j], editMode)
      && forall m :: j < m < |prefix| ==> !EndsPress(prefix[m]);
    assert evs[j] == prefix[j];
    assert forall m :: j < m < k ==> evs[m] == prefix[m];
  }

  lemma {:induction false} NoLongTapOutsideEditMode(nodeId: int, s: TapState, evs: seq<TapEvent>)
    requires !s.longTapTimer
    ensures !StateAfter(nodeId, false, s, evs).longTapTimer
    decreases |evs|
  {
    if evs != [] {
      NoLongTapOutsideEditMode(nodeId, s, evs[..|evs| - 1]);
    }
  }

  /** Outside edit mode no event sequence opens the node menu, by long tap or by
      right click. */
  lemma NoMenuOutsideEditMode(nodeId: int, s: TapState, evs: seq<TapEvent>)
    requires !s.longTapTimer
    ensures forall k :: 0 <= k < |evs| ==> !Emitted(nodeId, false, s, evs, k).OpenMenu?
  {
    forall k | 0 <= k < |evs|
      ensures !Emitted(nodeId, false, s, evs, k).OpenMenu?
    {
      NoLongTapOutsideEditMode(nodeId, s, evs[..k]);
    }
  }

  /** Unmounting clears both timers: an expiry arriving afterwards emits nothing and
      leaves the state as the unmount left it. */
  lemma UnmountSilencesTimers(nodeId: int, editMode: bool, s: TapState, t: TapEvent)
    requires t.LongTapTimeout? || t.DoubleTapTimeout?
    ensures Emitted(nodeId, editMode, s, [Unmount, t], 1) == Quiet
    ensures StateAfter(nodeId, editMode, s, [Unmount, t]) == StateAfter(nodeId, editMode, s, [Unmount])
  {
    assert [Unmount, t][..1] == [Unmount];
    assert [Unmount][..0] == [];
  }

  /** Two touches in a row make a double click, with or without the first finger lifted
      in between; the double-tap timer expiring or an edit-mode move between them turns
      the second touch into a new first tap. */
  lemma DoubleTapWindow(nodeId: int, editMode: bool, s: TapState, a: TapEvent, b: TapEvent, mx: real, my: real)
    requires !s.firstTap
    requires a.PointerDown? && a.kind != Mouse && b.PointerDown? && b.kind != Mouse
    ensures Emitted(nodeId, editMode, s, [a, b], 1) == DoubleClick
    ensures Emitted(nodeId, editMode, s, [a, PointerUp, b], 2) == DoubleClick
    ensures Emitted(nodeId, editMode, s, [a, DoubleTapTimeout, b], 2) == Quiet
    ensures editMode ==> Emitted(nodeId, editMode, s, [a, PointerMove(mx, my), b], 2) == Quiet
  {
    assert [a, b][..1] == [a];
    assert [a, b][..1][..0] == [];
    assert [a, DoubleTapTimeout, b][..2] == [a, DoubleTapTimeout];
    assert [a, DoubleTapTimeout][..1] == [a];
    assert [a, PointerMove(mx, my), b][..2] == [a, PointerMove(mx, my)];
    assert [a, PointerMove(mx, my)][..1] == [a];
    assert [a, PointerUp, b][..2] == [a, PointerUp];
    assert [a, PointerUp][..1] == [a];
    assert [a][..0] == [];
    assert StateAfter(nodeId, editMode, s, [a]).firstTap;
  }
}

=== FILE: notenode.dfy ===
/** The flat-tree edits a `NoteNode` performs: `hasChildren`, expand/collapse on
    double click, and dragging a node together with its descendants. */
module NoteNode {
  import opened Types

  // ---------------------------------------------------------------------------
  // hasChildren

  /** `flatTree.some(item => item.pid === id)`: strict equality, so a `pid` of 0
      does count here, unlike the truthiness test used for drawing edges. */
  function HasChildren(fs: seq<Entry>, id: int): (b: bool)
    ensures b <==> exists i :: 0 <= i < |fs| && fs[i].pid == Some(id)
    decreases |fs|
  {
    if fs == [] then false
    else
      assert forall i :: 1 <= i < |fs| ==> fs[1..][i - 1] == fs[i];
      fs[0].pid == Some(id) || HasChildren(fs[1..], id)
  }

  // ---------------------------------------------------------------------------
  // Expand / collapse

  /** The `prev.map` of `handleDoubleClick`: entries with the node's id get the new
      flag, every other entry is returned as it was. */
  function SetExpanded(fs: seq<Entry>, id: int, flag: bool): (r: seq<Entry>)
    ensures |r| == |fs|
    ensures forall i :: 0 <= i < |fs| ==>
      r[i] == (if fs[i].id == id then fs[i].(expanded := Some(flag)) else fs[i])
    decreases |fs|
  {
    if fs == [] then []
    else [if fs[0].id == id then fs[0].(expanded := Some(flag)) else fs[0]] + SetExpanded(fs[1..], id, flag)
  }

  /** `handleDoubleClick` for the node `id` whose `expanded` prop is `expanded`:
      nothing happens without children; otherwise the node's entries get an explicit
      flag that is true exactly when the prop was `false`. No id, pid, label or
      position changes, and whether the node has children is unaffected. */
  function ToggleExpanded(fs: seq<Entry>, id: int, expanded: Option<bool>): (r: seq<Entry>)
    ensures |r| == |fs|
    ensures !HasChildren(fs, id) ==> r == fs
    ensures HasChildren(fs, id) ==> forall i :: 0 <= i < |fs| ==>
      r[i] == (if fs[i].id == id then fs[i].(expanded := Some(expanded == Some(false))) else fs[i])
    ensures forall i :: 0 <= i < |fs| ==>
      r[i].id == fs[i].id && r[i].pid == fs[i].pid && r[i].text == fs[i].text
      && r[i].x == fs[i].x && r[i].y == fs[i].y && r[i].visible == fs[i].visible
    ensures HasChildren(r, id) == HasChildren(fs, id)
  {
    if !HasChildren(fs, id) then fs
    else
      // `newExpanded || newExpanded === undefined` is just `newExpanded`: it is a boolean.
      var newExpanded := expanded == Some(false);
      var r := SetExpanded(fs, id, newExpanded);
      assert forall i :: 0 <= i < |fs| ==> r[i].pid == fs[i].pid;
      r
  }

  /** Two double clicks, the second seeing the prop the first one wrote, give every
      entry back its effective flag: an explicit flag is restored exactly, an absent
      one on the toggled node comes back as explicit true, other entries never change. */
  lemma ToggleTwice(fs: seq<Entry>, id: int, prop: Option<bool>)
    requires forall i :: 0 <= i < |fs| && fs[i].id == id ==> fs[i].expanded == prop
    ensures var twice := ToggleExpanded(ToggleExpanded(fs, id, prop), id, Some(prop == Some(false)));
      |twice| == |fs|
      && (forall i :: 0 <= i < |fs| ==> IsExpanded(twice[i]) == IsExpanded(fs[i]))
      && (forall i :: 0 <= i < |fs| && fs[i].expanded.Some? ==> twice[i] == fs[i])
      && (forall i :: 0 <= i < |fs| ==>
            twice[i] == if fs[i].id == id && HasChildren(fs, id) then fs[i].(expanded := Some(IsExpanded(fs[i]))) else fs[i])
  {
    var once := ToggleExpanded(fs, id, prop);
    var flag := Some(prop == Some(false));
    var twice := ToggleExpanded(once, id, flag);
    var has := HasChildren(fs, id);
    assert HasChildren(once, id) == has;
    forall i | 0 <= i < |fs|
      ensures twice[i] == if fs[i].id == id && has then fs[i].(expanded := Some(IsExpanded(fs[i]))) else fs[i]
      ensures fs[i].expanded.Some? ==> twice[i] == fs[i]
    {
      var e := fs[i];
      if e.expanded.Some? {
        // An explicit flag is its own effective value.
        assert IsExpanded(e) == e.expanded.value;
        assert Some(IsExpanded(e)) == e.expanded;
        assert e.(expanded := e.expanded) == e;
      }
      if has {
        assert once[i] == if e.id == id then e.(expanded := flag) else e;
        assert twice[i] == if once[i].id == id then once[i].(expanded := Some(flag == Some(false))) else once[i];
      }
    }
  }

  // ---------------------------------------------------------------------------
  // Descendants

  /** One round of breadth expansion: the ids of entries whose `pid` is `id` or an
      id already found. */
  function Expand(fs: seq<Entry>, id: int, found: set<int>): set<int> {
    set e | e in fs && e.pid.Some? && (e.pid.value == id || e.pid.value in found) :: e.id
  }

  lemma ExpandWithinIds(fs: seq<Entry>, id: int, found: set<int>)
    ensures Expand(fs, id, found) <= IdsOf(fs)
  {
  }

  lemma ProperSubsetSmaller(a: set<int>, b: set<int>)
    requires a < b
    ensures |a| < |b|
  {
    var d := b - a;
    assert b == a + d && a * d == {};
    assert d != {};
    assert |b| == |a| + |d|;
  }

  /** Expands `found` until a round adds nothing: the least set containing `found`
      that is closed under "child of `id` or of a member". */
  function Grow(fs: seq<Entry>, id: int, found: set<int>): (r: set<int>)
    requires found <= IdsOf(fs)
    ensures found <= r <= IdsOf(fs)
    ensures Expand(fs, id, r) <= r
    decreases |IdsOf(fs) - found|
  {
    var next := found + Expand(fs, id, found);
    if next == found then found
    else
      ExpandWithinIds(fs, id, found);
      ProperSubsetSmaller(IdsOf(fs) - next, IdsOf(fs) - found);
      Grow(fs, id, next)
  }

  /** `findDescendantsByIdInFlatTree(flatTree, id).map(item => item.id)`, whose body
      is not part of this model: taken to be the ids of the entries whose `pid`
      chain reaches `id`. The result is closed under taking children. */
  function Descendants(fs: seq<Entry>, id: int): (r: set<int>)
    ensures r <= IdsOf(fs)
    ensures forall i :: 0 <= i < |fs| && fs[i].pid.Some? && (fs[i].pid.value == id || fs[i].pid.value in r) ==> fs[i].id in r
  {
    var r := Grow(fs, id, {});
    assert forall i :: 0 <= i < |fs| ==> fs[i] in fs;
    r
  }

  /** Some entry with id `d` has a `pid` chain of at most `k` links ending at `id`. */
  ghost predicate ChainTo(fs: seq<Entry>, d: int, id: int, k: nat)
    decreases k
  {
    k > 0 &&
    exists i :: 0 <= i < |fs| && fs[i].id == d && fs[i].pid.Some?
                && (fs[i].pid.value == id || ChainTo(fs, fs[i].pid.value, id, k - 1))
  }

  /** The `pid` chain of some entry with id `d` leads to `id`. */
  ghost predicate Reaches(fs: seq<Entry>, d: int, id: int) {
    exists k: nat :: ChainTo(fs, d, id, k)
  }

  lemma {:induction false} GrowSound(fs: seq<Entry>, id: int, found: set<int>)
    requires found <= IdsOf(fs)
    requires forall d :: d in found ==> Reaches(fs, d, id)
    ensures forall d :: d in Grow(fs, id, found) ==> Reaches(fs, d, id)
    decreases |IdsOf(fs) - found|
  {
    var next := found + Expand(fs, id, found);
    if next != found {
      forall d | d in Expand(fs, id, found)
        ensures Reaches(fs, d, id)
      {
        var e :| e in fs && e.pid.Some? && (e.pid.value == id || e.pid.value in found) && e.id == d;
        var i :| 0 <= i < |fs| && fs[i] == e;
        if e.pid.value == id {
          assert ChainTo(fs, d, id, 1);
          assert Reaches(fs, d, id);
        } else {
          var k: nat :| ChainTo(fs, e.pid.value, id, k);
          assert ChainTo(fs, d, id, k + 1);
          assert Reaches(fs, d, id);
        }
      }
      assert forall d :: d in next ==> d in found || d in Expand(fs, id, found);
      ExpandWithinIds(fs, id, found);
      ProperSubsetSmaller(IdsOf(fs) - next, IdsOf(fs) - found);
      GrowSound(fs, id, next);
      assert Grow(fs, id, found) == Grow(fs, id, next);
    } else {
      assert Grow(fs, id, found) == found;
      forall d | d in Grow(fs, id, found)
        ensures Reaches(fs, d, id)
      {
        assert d in found;
      }
    }
  }

  lemma {:induction false} ChainsAreFound(fs: seq<Entry>, id: int, d: int, k: nat)
    requires ChainTo(fs, d, id, k)
    ensures d in Descendants(fs, id)
    decreases k
  {
    var i :| 0 <= i < |fs| && fs[i].id == d && fs[i].pid.Some?
      && (fs[i].pid.value == id || ChainTo(fs, fs[i].pid.value, id, k - 1));
    if fs[i].pid.value != id {
      ChainsAreFound(fs, id, fs[i].pid.value, k - 1);
    }
  }

  /** An id is a descendant of `id` exactly when some entry carrying it has a
      `pid` chain leading to `id`. */
  lemma DescendantsAreChains(fs: seq<Entry>, id: int, d: int)
    ensures d in Descendants(fs, id) <==> Reaches(fs, d, id)
  {
    GrowSound(fs, id, {});
    assert Descendants(fs, id) == Grow(fs, id, {});
    if k: nat :| ChainTo(fs, d, id, k) {
      ChainsAreFound(fs, id, d, k);
      assert d in Descendants(fs, id);
    } else {
      assert d !in Grow(fs, id, {});
    }
  }

  // ---------------------------------------------------------------------------
  // Subtree drag

  /** The zoom a drag scales by: `viewportZoom ?? 1`. */
  function Scale(zoom: Option<real>): real {
    zoom.GetOr(1.0)
  }

  /** The pointer moving from `from` to `to` on one axis, in canvas units:
      `(to - from) * (viewportZoom ?? 1)`. */
  function Scaled(from: real, to: real, zoom: Option<real>): real {
    (to - from) * Scale(zoom)
  }

  /** Whether a drag of `id` carrying `carried` moves this entry. */
  predicate Moves(e: Entry, id: int, carried: set<int>) {
    e.id == id || e.id in carried
  }

  /** The `prev.map` of `onPointerMove`: the dragged node and every carried id move
      by `(dx, dy)`, the pointer delta already scaled by the zoom; every other entry
      is returned as it was. */
  function Translate(fs: seq<Entry>, id: int, carried: set<int>, dx: real, dy: real): (r: seq<Entry>)
    ensures |r| == |fs|
    ensures forall i :: 0 <= i < |fs| && Moves(fs[i], id, carried) ==>
      r[i] == fs[i].(x := fs[i].x + dx, y := fs[i].y + dy)
    ensures forall i :: 0 <= i < |fs| && !Moves(fs[i], id, carried) ==> r[i] == fs[i]
    decreases |fs|
  {
    if fs == [] then []
    else
      var e := fs[0];
      var moved := if Moves(e, id, carried) then e.(x := e.x + dx, y := e.y + dy) else e;
      [moved] + Translate(fs[1..], id, carried, dx, dy)
  }

  /** `r` differs from `fs` at most in the entries a drag of `id` carrying `carried`
      moves: same length, same ids, every other entry identical. */
  predicate MovesOnly(fs: seq<Entry>, r: seq<Entry>, id: int, carried: set<int>) {
    && |r| == |fs|
    && (forall i :: 0 <= i < |fs| ==> r[i].id == fs[i].id)
    && (forall i :: 0 <= i < |fs| && !Moves(fs[i], id, carried) ==> r[i] == fs[i])
  }

  /** Every entry a drag of `id` carrying `carried` moves sits `(dx, dy)` further in `r`. */
  predicate Shifted(fs: seq<Entry>, r: seq<Entry>, id: int, carried: set<int>, dx: real, dy: real)
    requires |r| == |fs|
  {
    forall i :: 0 <= i < |fs| && Moves(fs[i], id, carried) ==>
      r[i].x == fs[i].x + dx && r[i].y == fs[i].y + dy
  }

  /** `Translate` changes only the entries it moves, and shifts each of them by `(dx, dy)`. */
  lemma TranslateMovesOnly(fs: seq<Entry>, id: int, carried: set<int>, dx: real, dy: real)
    ensures MovesOnly(fs, Translate(fs, id, carried, dx, dy), id, carried)
    ensures Shifted(fs, Translate(fs, id, carried, dx, dy), id, carried, dx, dy)
  {
  }

  /** Two drag steps add up: moving by one delta and then another is moving by their sum. */
  lemma TranslateCompose(fs: seq<Entry>, id: int, carried: set<int>, dx1: real, dy1: real, dx2: real, dy2: real)
    ensures Translate(Translate(fs, id, carried, dx1, dy1), id, carried, dx2, dy2)
         == Translate(fs, id, carried, dx1 + dx2, dy1 + dy2)
  {
    var m := Translate(fs, id, carried, dx1, dy1);
    var a := Translate(m, id, carried, dx2, dy2);
    var b := Translate(fs, id, carried, dx1 + dx2, dy1 + dy2);
    forall i | 0 <= i < |fs|
      ensures a[i] == b[i]
    {
      if Moves(fs[i], id, carried) {
        assert m[i] == fs[i].(x := fs[i].x + dx1, y := fs[i].y + dy1);
        assert Moves(m[i], id, carried);
      } else {
        assert m[i] == fs[i];
      }
    }
    assert a == b;
  }

  /** Scaled deltas between consecutive samples add up to the scaled total delta. */
  lemma ScaledDeltas(start: real, mid: real, last: real, zoom: Option<real>)
    ensures Scaled(start, mid, zoom) + Scaled(mid, last, zoom) == Scaled(start, last, zoom)
  {
  }

  /** The drag bookkeeping in `positionRef` plus the ids captured at pointer-down. */
  datatype DragState = DragState(dragging: bool, startX: real, startY: real, carried: set<int>)

  datatype DragEvent = Down(clientX: real, clientY: real) | Move(clientX: real, clientY: real) | Up

  /** What a node's drag handlers read from their context. */
  datatype DragContext = DragContext(id: int, editMode: bool, zoom: Option<real>)

  /** One pointer event for the native drag listeners of a node. A drag starts only in
      edit mode, and then captures the node's descendants once; a move outside a drag
      changes nothing; a move during a drag shifts exactly the node and the captured
      ids by the delta since the last sample; pointer-up ends the drag. */
  function DragStep(ctx: DragContext, s: DragState, fs: seq<Entry>, ev: DragEvent): (r: (DragState, seq<Entry>))
    // A drag begins only on a pointer-down in edit mode, and only then are the
    // carried ids (re)captured: as the node's descendants at that moment.
    ensures !s.dragging && r.0.dragging ==> ev.Down? && ctx.editMode
    ensures r.0.carried != s.carried ==> ev.Down? && ctx.editMode
    ensures ev.Down? && ctx.editMode ==>
      && r.0.dragging && r.0.carried == Descendants(fs, ctx.id)
      && r.0.startX == ev.clientX && r.0.startY == ev.clientY
    // Outside edit mode a pointer-down does nothing at all.
    ensures ev.Down? && !ctx.editMode ==> r == (s, fs)
    // Pointer-up always ends the drag, and a move never starts or ends one.
    ensures ev.Up? ==> !r.0.dragging
    ensures ev.Move? ==> r.0.dragging == s.dragging
    // The flat tree changes only on a move during a drag, and then only in the entries
    // the drag moves.
    ensures !(ev.Move? && s.dragging) ==> r.1 == fs
    ensures MovesOnly(fs, r.1, ctx.id, s.carried)
    // During a drag a move shifts the node and the carried entries by the pointer
    // delta since the last sample, scaled by the zoom, and makes the pointer the new sample.
    ensures ev.Move? && s.dragging ==>
      && r.0.startX == ev.clientX && r.0.startY == ev.clientY
      && Shifted(fs, r.1, ctx.id, s.carried, Scaled(s.startX, ev.clientX, ctx.zoom),
                 Scaled(s.startY, ev.clientY, ctx.zoom))
  {
    match ev
    case Down(cx, cy) =>
      if !ctx.editMode then (s, fs)
      else (DragState(true, cx, cy, Descendants(fs, ctx.id)), fs)
    case Move(cx, cy) =>
      if !s.dragging then (s, fs)
      else
        var dx, dy := Scaled(s.startX, cx, ctx.zoom), Scaled(s.startY, cy, ctx.zoom);
        TranslateMovesOnly(fs, ctx.id, s.carried, dx, dy);
        (s.(startX := cx, startY := cy), Translate(fs, ctx.id, s.carried, dx, dy))
    case Up =>
      (s.(dragging := false), fs)
  }

  /** Feeds a sequence of pointer events through `DragStep`. */
  function DragRun(ctx: DragContext, s: DragState, fs: seq<Entry>, evs: seq<DragEvent>): (DragState, seq<Entry>)
    decreases |evs|
  {
    if evs == [] then (s, fs)
    else
      var (s1, fs1) := DragStep(ctx, s, fs, evs[0]);
      DragRun(ctx, s1, fs1, evs[1..])
  }

  /** Every event of `evs` is a pointer move. */
  predicate AllMoves(evs: seq<DragEvent>) {
    forall k :: 0 <= k < |evs| ==> evs[k].Move?
  }

  /** A run takes its first step and then runs the rest. */
  lemma RunFirst(ctx: DragContext, s: DragState, fs: seq<Entry>, evs: seq<DragEvent>)
    requires evs != []
    ensures var first := DragStep(ctx, s, fs, evs[0]);
      DragRun(ctx, s, fs, evs) == DragRun(ctx, first.0, first.1, evs[1..])
  {
  }

  /** One move during a drag, as a single equation. */
  lemma MoveDuringDrag(ctx: DragContext, s: DragState, fs: seq<Entry>, ev: DragEvent)
    requires s.dragging && ev.Move?
    ensures DragStep(ctx, s, fs, ev)
         == (s.(startX := ev.clientX, startY := ev.clientY),
             Translate(fs, ctx.id, s.carried, Scaled(s.startX, ev.clientX, ctx.zoom),
                       Scaled(s.startY, ev.clientY, ctx.zoom)))
  {
  }

  /** An edit-mode pointer-down, as a single equation. */
  lemma DownInEditMode(ctx: DragContext, s: DragState, fs: seq<Entry>, x: real, y: real)
    requires ctx.editMode
    ensures DragStep(ctx, s, fs, Down(x, y)) == (DragState(true, x, y, Descendants(fs, ctx.id)), fs)
  {
  }

  /** Over a run of moves during a drag the per-sample shifts telescope: the carried
      nodes end up moved by (last pointer position - start) times the zoom. */
  lemma {:induction false} DragTelescopes(ctx: DragContext, s: DragState, fs: seq<Entry>, evs: seq<DragEvent>)
    requires s.dragging && evs != [] && AllMoves(evs)
    ensures var last := evs[|evs| - 1];
      DragRun(ctx, s, fs, evs)
        == (s.(startX := last.clientX, startY := last.clientY),
            Translate(fs, ctx.id, s.carried, Scaled(s.startX, last.clientX, ctx.zoom),
                      Scaled(s.startY, last.clientY, ctx.zoom)))
    decreases |evs|
  {
    var e := evs[0];
    var last := evs[|evs| - 1];
    MoveDuringDrag(ctx, s, fs, e);
    var s1 := s.(startX := e.clientX, startY := e.clientY);
    var fs1 := Translate(fs, ctx.id, s.carried, Scaled(s.startX, e.clientX, ctx.zoom),
                         Scaled(s.startY, e.clientY, ctx.zoom));
    assert DragRun(ctx, s, fs, evs) == DragRun(ctx, s1, fs1, evs[1..]);
    if |evs| == 1 {
      assert DragRun(ctx, s1, fs1, evs[1..]) == (s1, fs1);
    } else {
      DragTelescopes(ctx, s1, fs1, evs[1..]);
      assert evs[1..][|evs[1..]| - 1] == last;
      TranslateCompose(fs, ctx.id, s.carried,
        Scaled(s.startX, e.clientX, ctx.zoom), Scaled(s.startY, e.clientY, ctx.zoom),
        Scaled(e.clientX, last.clientX, ctx.zoom), Scaled(e.clientY, last.clientY, ctx.zoom));
      ScaledDeltas(s.startX, e.clientX, last.clientX, ctx.zoom);
      ScaledDeltas(s.startY, e.clientY, last.clientY, ctx.zoom);
    }
  }

  /** A whole drag in edit mode: a pointer-down followed by moves carries the node and
      its descendants, as they were at pointer-down, by (last pointer position - the
      pointer-down position) times the zoom. */
  lemma DragFromDown(ctx: DragContext, s: DragState, fs: seq<Entry>, x0: real, y0: real, moves: seq<DragEvent>)
    requires ctx.editMode && moves != [] && AllMoves(moves)
    ensures var last := moves[|moves| - 1];
      DragRun(ctx, s, fs, [Down(x0, y0)] + moves).1
        == Translate(fs, ctx.id, Descendants(fs, ctx.id), Scaled(x0, last.clientX, ctx.zoom),
                     Scaled(y0, last.clientY, ctx.zoom))
  {
    RunAfterDown(ctx, s, fs, x0, y0, moves);
    DragFromStart(ctx, fs, x0, y0, Descendants(fs, ctx.id), moves);
  }

  /** A drag started at `(x0, y0)` carrying `carried`, followed by moves, shifts by
      (last pointer position - start) times the zoom. */
  lemma DragFromStart(ctx: DragContext, fs: seq<Entry>, x0: real, y0: real, carried: set<int>, moves: seq<DragEvent>)
    requires moves != [] && AllMoves(moves)
    ensures var last := moves[|moves| - 1];
      DragRun(ctx, DragState(true, x0, y0, carried), fs, moves).1
        == Translate(fs, ctx.id, carried, Scaled(x0, last.clientX, ctx.zoom),
                     Scaled(y0, last.clientY, ctx.zoom))
  {
    DragTelescopes(ctx, DragState(true, x0, y0, carried), fs, moves);
  }

  /** After an edit-mode pointer-down the run goes on from the freshly started drag. */
  lemma RunAfterDown(ctx: DragContext, s: DragState, fs: seq<Entry>, x0: real, y0: real, moves: seq<DragEvent>)
    requires ctx.editMode
    ensures DragRun(ctx, s, fs, [Down(x0, y0)] + moves)
         == DragRun(ctx, DragState(true, x0, y0, Descendants(fs, ctx.id)), fs, moves)
  {
    var evs := [Down(x0, y0)] + moves;
    assert evs[0] == Down(x0, y0) && evs[1..] == moves;
    RunFirst(ctx, s, fs, evs);
    DownInEditMode(ctx, s, fs, x0, y0);
  }

  /** Outside edit mode no drag ever starts, so no event sequence moves any node. */
  lemma {:induction false} NoDragOutsideEditMode(ctx: DragContext, s: DragState, fs: seq<Entry>, evs: seq<DragEvent>)
    requires !ctx.editMode && !s.dragging
    ensures DragRun(ctx, s, fs, evs).1 == fs
    ensures !DragRun(ctx, s, fs, evs).0.dragging
    decreases |evs|
  {
    if evs != [] {
      var (s1, fs1) := DragStep(ctx, s, fs, evs[0]);
      NoDragOutsideEditMode(ctx, s1, fs1, evs[1..]);
    }
  }
}

=== FILE: notetree.dfy ===
/** `NoteTree`: which edges and which nodes of a flat tree are drawn. */
module NoteTree {
  import opened Types

  /** A `createLine` call: the key and the two end points of an edge. */
  datatype Line = Line(key: string, x1: real, y1: real, x2: real, y2: real)

  /** The props one drawn `NoteNode` receives. */
  datatype NodeProps = NodeProps(id: int, x: real, y: real, text: string, expanded: Option<bool>)

  function DigitChar(d: nat): char
    requires d < 10
  {
    "0123456789"[d]
  }

  /** Decimal digits of a natural number, as a template literal prints it. */
  function Digits(n: nat): string
    decreases n
  {
    if n < 10 then [DigitChar(n)] else Digits(n / 10) + [DigitChar(n % 10)]
  }

  function Decimal(n: int): string {
    if n < 0 then "-" + Digits(-n) else Digits(n)
  }

  /** The React key `line-${parent.id}-${node.id}`. */
  function LineKey(parentId: int, childId: int): string {
    "line-" + Decimal(parentId) + "-" + Decimal(childId)
  }

  /** Entry `i` is the last one in the list carrying its id. */
  predicate IsLastWithId(fs: seq<Entry>, i: int) {
    0 <= i < |fs| && forall j :: i < j < |fs| ==> fs[j].id != fs[i].id
  }

  /** `nodesMap`: every id of the list, mapped to the entry that `Map.set`
      stored last for it, i.e. the last entry in the list with that id. */
  function IndexById(fs: seq<Entry>): (m: map<int, Entry>)
    ensures forall k :: k in m <==> exists i :: 0 <= i < |fs| && fs[i].id == k
    ensures forall k :: k in m ==> exists i :: IsLastWithId(fs, i) && fs[i].id == k && m[k] == fs[i]
    decreases |fs|
  {
    if fs == [] then map[]
    else
      var n := |fs| - 1;
      var m0 := IndexById(fs[..n]);
      IndexByIdKeys(fs, m0);
      IndexByIdLast(fs, m0);
      m0[fs[n].id := fs[n]]
  }

  /** The keys after one more `Map.set` are the ids of the longer list. */
  lemma IndexByIdKeys(fs: seq<Entry>, m0: map<int, Entry>)
    requires fs != []
    requires forall k :: k in m0 <==> exists i :: 0 <= i < |fs| - 1 && fs[i].id == k
    ensures var m := m0[fs[|fs| - 1].id := fs[|fs| - 1]];
      forall k :: k in m <==> exists i :: 0 <= i < |fs| && fs[i].id == k
  {
    var n := |fs| - 1;
    var m := m0[fs[n].id := fs[n]];
    forall k
      ensures k in m <==> exists i :: 0 <= i < |fs| && fs[i].id == k
    {
      if exists i :: 0 <= i < |fs| && fs[i].id == k {
        var i :| 0 <= i < |fs| && fs[i].id == k;
        if i < n {
          assert k in m0;
        }
      }
    }
  }

  /** After one more `Map.set` every value is still the last entry with its id. */
  lemma IndexByIdLast(fs: seq<Entry>, m0: map<int, Entry>)
    requires fs != []
    requires forall k :: k in m0 ==> exists i :: IsLastWithId(fs[..|fs| - 1], i) && fs[i].id == k && m0[k] == fs[i]
    ensures var m := m0[fs[|fs| - 1].id := fs[|fs| - 1]];
      forall k :: k in m ==> exists i :: IsLastWithId(fs, i) && fs[i].id == k && m[k] == fs[i]
  {
    var n := |fs| - 1;
    var m := m0[fs[n].id := fs[n]];
    assert IsLastWithId(fs, n);
    forall k | k in m
      ensures exists i :: IsLastWithId(fs, i) && fs[i].id == k && m[k] == fs[i]
    {
      if k != fs[n].id {
        var i :| IsLastWithId(fs[..n], i) && fs[i].id == k && m0[k] == fs[i];
        assert IsLastWithId(fs, i);
      }
    }
  }

  /** The node filter `node.visible !== false || !node.pid`. */
  predicate Drawn(e: Entry) {
    NotHidden(e) || !HasParentRef(e)
  }

  /** The edge `NoteTree` draws for one entry, looked up in `nodesMap`. */
  function EdgeFor(index: map<int, Entry>, e: Entry): Option<Line> {
    if HasParentRef(e) && NotHidden(e) && e.pid.value in index then
      var parent := index[e.pid.value];
      Some(Line(LineKey(parent.id, e.id), parent.x, parent.y, e.x, e.y))
    else None
  }

  /** `edges`: one slot per entry, position-aligned with the flat tree. A slot holds
      a line exactly when the entry has a truthy `pid`, is not hidden and some entry
      carries that `pid` as its id; the line runs from the last such entry to the child,
      and the child itself is always among the drawn nodes. */
  function Edges(fs: seq<Entry>): (r: seq<Option<Line>>)
    ensures |r| == |fs|
    ensures forall i :: 0 <= i < |fs| ==>
      (r[i].Some? <==>
        HasParentRef(fs[i]) && NotHidden(fs[i]) && exists j :: 0 <= j < |fs| && fs[j].id == fs[i].pid.value)
    ensures forall i :: 0 <= i < |fs| && r[i].Some? ==>
      fs[i].pid.Some? && Drawn(fs[i]) &&
      (exists j :: IsLastWithId(fs, j) && fs[j].id == fs[i].pid.value
        && r[i].value == Line(LineKey(fs[i].pid.value, fs[i].id), fs[j].x, fs[j].y, fs[i].x, fs[i].y))
  {
    var index := IndexById(fs);
    seq(|fs|, i requires 0 <= i < |fs| => EdgeFor(index, fs[i]))
  }

  /** Positions from `i` on whose entries pass the node filter, in increasing order. */
  function DrawnFrom(fs: seq<Entry>, i: nat): (r: seq<nat>)
    requires i <= |fs|
    ensures forall k :: 0 <= k < |r| ==> i <= r[k] < |fs| && Drawn(fs[r[k]])
    ensures forall k, l :: 0 <= k < l < |r| ==> r[k] < r[l]
    decreases |fs| - i
  {
    if i == |fs| then [] else (if Drawn(fs[i]) then [i] else []) + DrawnFrom(fs, i + 1)
  }

  /** Every drawn position from `i` on is listed. */
  lemma {:induction false} DrawnFromComplete(fs: seq<Entry>, i: nat)
    requires i <= |fs|
    ensures forall j :: i <= j < |fs| && Drawn(fs[j]) ==> j in DrawnFrom(fs, i)
    decreases |fs| - i
  {
    if i < |fs| {
      DrawnFromComplete(fs, i + 1);
    }
  }

  /** When every entry from `i` on passes the filter, they are all listed, in order. */
  lemma {:induction false} EveryPositionDrawn(fs: seq<Entry>, i: nat)
    requires i <= |fs|
    requires forall j :: i <= j < |fs| ==> Drawn(fs[j])
    ensures |DrawnFrom(fs, i)| == |fs| - i
    ensures forall k :: 0 <= k < |fs| - i ==> DrawnFrom(fs, i)[k] == i + k
    decreases |fs| - i
  {
    if i < |fs| {
      EveryPositionDrawn(fs, i + 1);
      assert DrawnFrom(fs, i) == [i] + DrawnFrom(fs, i + 1);
    }
  }

  /** The positions of the drawn nodes: exactly the entries passing the filter, in
      flat-tree order; an entry without a truthy `pid` is drawn even when hidden. */
  function DrawnIndices(fs: seq<Entry>): (r: seq<nat>)
    ensures forall k, l :: 0 <= k < l < |r| ==> r[k] < r[l]
    ensures forall k :: 0 <= k < |r| ==> r[k] < |fs|
    ensures forall j :: 0 <= j < |fs| ==> (j in r <==> Drawn(fs[j]))
    ensures forall j :: 0 <= j < |fs| && !HasParentRef(fs[j]) ==> j in r
  {
    DrawnFromComplete(fs, 0);
    DrawnFrom(fs, 0)
  }

  function Props(e: Entry): NodeProps {
    NodeProps(e.id, e.x, e.y, e.text, e.expanded)
  }

  /** `flatTree.filter(...).map(...)`: the props of the drawn entries, in order. */
  function DrawnNodes(fs: seq<Entry>): seq<NodeProps>
    decreases |fs|
  {
    if fs == [] then []
    else (if Drawn(fs[0]) then [Props(fs[0])] else []) + DrawnNodes(fs[1..])
  }

  lemma {:induction false} DrawnNodesShift(fs: seq<Entry>, i: nat)
    requires i <= |fs|
    ensures |DrawnNodes(fs[i..])| == |DrawnFrom(fs, i)|
    ensures forall k :: 0 <= k < |DrawnFrom(fs, i)| ==> DrawnNodes(fs[i..])[k] == Props(fs[DrawnFrom(fs, i)[k]])
    decreases |fs| - i
  {
    if i < |fs| {
      DrawnNodesShift(fs, i + 1);
      assert fs[i..][0] == fs[i];
      assert fs[i..][1..] == fs[i + 1..];
      var nodes := DrawnNodes(fs[i..]);
      var here := DrawnFrom(fs, i);
      var tail := DrawnNodes(fs[i + 1..]);
      var rest := DrawnFrom(fs, i + 1);
      if Drawn(fs[i]) {
        assert nodes == [Props(fs[i])] + tail;
        assert here == [i] + rest;
        forall k | 1 <= k < |here|
          ensures nodes[k] == Props(fs[here[k]])
        {
          assert nodes[k] == tail[k - 1] && here[k] == rest[k - 1];
        }
      } else {
        assert nodes == tail;
        assert here == rest;
      }
    }
  }

  /** The drawn node list is the drawn positions' entries, in order, each passing on
      its id, x, y, label and expanded flag unchanged. */
  lemma DrawnNodesAreSelection(fs: seq<Entry>)
    ensures var idx := DrawnIndices(fs);
      |DrawnNodes(fs)| == |idx|
      && forall k :: 0 <= k < |idx| ==>
        var n := DrawnNodes(fs)[k];
        var e := fs[idx[k]];
        n.id == e.id && n.x == e.x && n.y == e.y && n.text == e.text && n.expanded == e.expanded
  {
    DrawnNodesShift(fs, 0);
    assert fs[0..] == fs;
  }
}

=== FILE: paper.dfy ===
/** The paper of `App`: the SVG `viewBox` (`viewport`) over a paper of fixed screen
    size, moved by panning, scaled by the wheel and put back by "reset zoom".
    Arithmetic is over exact reals; the source's IEEE-754 rounding is not modelled. */
module Paper {

  /** `viewport`: the `viewBox` origin, its extent and the zoom factor. */
  datatype Viewport = Viewport(x: real, y: real, width: real, height: real, zoom: real)

  /** `paperSize`: the window size the SVG element is drawn at. */
  datatype PaperSize = PaperSize(width: real, height: real)

  /** The factor one wheel tick scales the zoom by. */
  const ZoomStep: real := 1.1

  /** The `viewBox` extent is the paper size times the zoom. */
  predicate Settled(v: Viewport, p: PaperSize) {
    v.width == p.width * v.zoom && v.height == p.height * v.zoom
  }

  /** The viewport once the layout effect has sized it: origin 0, zoom 1, the
      extent of the window. */
  function Initial(p: PaperSize): (v: Viewport)
    ensures Settled(v, p) && v.zoom == 1.0
    ensures v.x == 0.0 && v.y == 0.0
  {
    Viewport(0.0, 0.0, p.width, p.height, 1.0)
  }

  /** `resetZoom`: back to zoom 1 with the paper's own extent; the origin stays. */
  function ResetZoom(v: Viewport, p: PaperSize): (r: Viewport)
    ensures r.zoom == 1.0 && Settled(r, p)
    ensures r.x == v.x && r.y == v.y
  {
    v.(width := p.width, height := p.height, zoom := 1.0)
  }

  /** The zoom after a wheel event: divided by the step when scrolling up, multiplied
      when scrolling down, kept when `deltaY` is 0. */
  function NextZoom(zoom: real, deltaY: real): real {
    if deltaY < 0.0 then zoom / ZoomStep
    else if deltaY > 0.0 then zoom * ZoomStep
    else zoom
  }

  /** `onWheel`: rescale around the pointer. The pointer's position as a fraction of
      the paper gives the share of the extent change taken from the left and top. */
  function WheelZoom(v: Viewport, p: PaperSize, deltaY: real, clientX: real, clientY: real): (r: Viewport)
    requires p.width > 0.0 && p.height > 0.0
    ensures deltaY < 0.0 ==> r.zoom * ZoomStep == v.zoom
    ensures deltaY > 0.0 ==> r.zoom == v.zoom * ZoomStep
    ensures deltaY == 0.0 ==> r.zoom == v.zoom && r.x == v.x && r.y == v.y
    ensures Settled(r, p)
    // The paper point under the pointer stays under the pointer.
    ensures r.x + clientX * r.zoom == v.x + clientX * v.zoom
    ensures r.y + clientY * r.zoom == v.y + clientY * v.zoom
    ensures v.zoom > 0.0 ==> r.zoom > 0.0
  {
    var zoom := v.zoom;
    var newZoom := NextZoom(zoom, deltaY);
    var ratioX := clientX / p.width;
    var ratioY := clientY / p.height;
    assert p.width * ratioX == clientX;
    assert p.height * ratioY == clientY;
    var deltaX := p.width * -(newZoom - zoom) * ratioX;
    var deltaY' := p.height * -(newZoom - zoom) * ratioY;
    assert deltaX == -(newZoom - zoom) * clientX;
    assert deltaY' == -(newZoom - zoom) * clientY;
    Viewport(v.x + deltaX, v.y + deltaY', p.width * newZoom, p.height * newZoom, newZoom)
  }

  /** One tick in and one tick out at the same pointer position, in either order,
      restore zoom and origin; a viewport whose extent matched the paper comes back
      unchanged. */
  lemma WheelInThenOut(v: Viewport, p: PaperSize, up: real, down: real, clientX: real, clientY: real)
    requires p.width > 0.0 && p.height > 0.0
    requires up < 0.0 < down
    ensures var r := WheelZoom(WheelZoom(v, p, up, clientX, clientY), p, down, clientX, clientY);
      r.zoom == v.zoom && r.x == v.x && r.y == v.y && (Settled(v, p) ==> r == v)
    ensures var r := WheelZoom(WheelZoom(v, p, down, clientX, clientY), p, up, clientX, clientY);
      r.zoom == v.zoom && r.x == v.x && r.y == v.y && (Settled(v, p) ==> r == v)
  {
    var a := WheelZoom(v, p, up, clientX, clientY);
    var r := WheelZoom(a, p, down, clientX, clientY);
    assert r.zoom == v.zoom by {
      assert a.zoom * ZoomStep == v.zoom && r.zoom == a.zoom * ZoomStep;
    }
    SameZoomSameOrigin(v, r, p, clientX, clientY);
    var b := WheelZoom(v, p, down, clientX, clientY);
    var q := WheelZoom(b, p, up, clientX, clientY);
    assert q.zoom == v.zoom by {
      assert b.zoom == v.zoom * ZoomStep && q.zoom * ZoomStep == b.zoom;
    }
    SameZoomSameOrigin(v, q, p, clientX, clientY);
  }

  /** A viewport that keeps the pointer's paper point and ends at the starting zoom
      is back at the starting origin. */
  lemma SameZoomSameOrigin(v: Viewport, r: Viewport, p: PaperSize, clientX: real, clientY: real)
    requires r.x + clientX * r.zoom == v.x + clientX * v.zoom
    requires r.y + clientY * r.zoom == v.y + clientY * v.zoom
    requires r.zoom == v.zoom && Settled(r, p)
    ensures r.x == v.x && r.y == v.y && (Settled(v, p) ==> r == v)
  {
    assert clientX * r.zoom == clientX * v.zoom;
    assert clientY * r.zoom == clientY * v.zoom;
  }

  /** A wheel tick at the centre of the paper does move the origin: by half the change
      of the extent, so the centre stays put and the corner does not. */
  lemma WheelAtCentreMovesOrigin(v: Viewport, p: PaperSize, deltaY: real)
    requires p.width > 0.0 && p.height > 0.0 && v.zoom > 0.0 && deltaY != 0.0
    ensures var r := WheelZoom(v, p, deltaY, p.width / 2.0, p.height / 2.0);
      r.x != v.x && r.y != v.y
      && r.x == v.x - (r.zoom - v.zoom) * p.width / 2.0
      && r.y == v.y - (r.zoom - v.zoom) * p.height / 2.0
  {
    var r := WheelZoom(v, p, deltaY, p.width / 2.0, p.height / 2.0);
    if deltaY < 0.0 {
      assert r.zoom * ZoomStep == v.zoom;
      assert r.zoom < v.zoom;
    } else {
      assert r.zoom == v.zoom * ZoomStep;
      assert r.zoom > v.zoom;
    }
  }

  /** `panningInfo`: whether a pan is in progress and the last pointer sample. */
  datatype PanState = PanState(panning: bool, startX: real, startY: real)

  /** The pan listeners: mouse-down and touch-start on the paper element (`onPaper`
      is `e.target === paperEl`), moves and releases on the window. A touch event's
      position is that of its first touch point. */
  datatype PanEvent =
    | MouseDown(button: int, onPaper: bool, clientX: real, clientY: real)
    | MouseMove(clientX: real, clientY: real)
    | MouseUp
    | TouchStart(onPaper: bool, clientX: real, clientY: real)
    | TouchMove(clientX: real, clientY: real)
    | TouchEnd

  /** Whether the event starts a pan: the left button or a touch, on the paper itself. */
  predicate StartsPan(ev: PanEvent) {
    (ev.MouseDown? && ev.button == 0 && ev.onPaper) || (ev.TouchStart? && ev.onPaper)
  }

  predicate IsMove(ev: PanEvent) {
    ev.MouseMove? || ev.TouchMove?
  }

  /** One pan event. Mouse and touch share `panningInfo`, so a move of either kind
      continues a pan started by either. */
  function PanStep(s: PanState, v: Viewport, ev: PanEvent): (r: (PanState, Viewport))
    // Panning never rescales.
    ensures r.1.width == v.width && r.1.height == v.height && r.1.zoom == v.zoom
    ensures StartsPan(ev) ==> r == (PanState(true, ev.clientX, ev.clientY), v)
    ensures !s.panning && r.0.panning ==> StartsPan(ev)
    ensures IsMove(ev) && !s.panning ==> r == (s, v)
    // A move while panning shifts the origin against the screen delta since the
    // last sample, unscaled by the zoom.
    ensures IsMove(ev) && s.panning ==>
      && r.0 == s.(startX := ev.clientX, startY := ev.clientY)
      && r.1.x == v.x - (ev.clientX - s.startX)
      && r.1.y == v.y - (ev.clientY - s.startY)
    ensures (ev.MouseUp? || ev.TouchEnd?) ==> r == (s.(panning := false), v)
    ensures r.1.x != v.x || r.1.y != v.y ==> s.panning && IsMove(ev)
  {
    match ev
    case MouseDown(button, onPaper, cx, cy) =>
      if button != 0 || !onPaper then (s, v) else (PanState(true, cx, cy), v)
    case TouchStart(onPaper, cx, cy) =>
      if !onPaper then (s, v) else (PanState(true, cx, cy), v)
    case MouseMove(cx, cy) => PanMove(s, v, cx, cy)
    case TouchMove(cx, cy) => PanMove(s, v, cx, cy)
    case MouseUp => (s.(panning := false), v)
    case TouchEnd => (s.(panning := false), v)
  }

  /** The shared body of `onMousemove` and `onTouchmove`. */
  function PanMove(s: PanState, v: Viewport, cx: real, cy: real): (PanState, Viewport) {
    if !s.panning then (s, v)
    else
      var deltaX := cx - s.startX;
      var deltaY := cy - s.startY;
      (s.(startX := cx, startY := cy), v.(x := v.x + -deltaX, y := v.y + -deltaY))
  }

  /** Feeds a sequence of pan events through `PanStep`. */
  function PanRun(s: PanState, v: Viewport, evs: seq<PanEvent>): (PanState, Viewport)
    decreases |evs|
  {
    if evs == [] then (s, v)
    else
      var (s1, v1) := PanStep(s, v, evs[0]);
      PanRun(s1, v1, evs[1..])
  }

  /** Over a run of moves during a pan the per-sample shifts telescope: the origin
      ends up moved by minus (last pointer position - start). */
  lemma {:induction false} PanTelescopes(s: PanState, v: Viewport, evs: seq<PanEvent>)
    requires s.panning && evs != []
    requires forall k :: 0 <= k < |evs| ==> IsMove(evs[k])
    ensures var last := evs[|evs| - 1];
      IsMove(last) && PanRun(s, v, evs)
        == (s.(startX := last.clientX, startY := last.clientY),
            v.(x := v.x - (last.clientX - s.startX), y := v.y - (last.clientY - s.startY)))
    decreases |evs|
  {
    var e := evs[0];
    var (s1, v1) := PanStep(s, v, e);
    if |evs| == 1 {
      assert PanRun(s1, v1, evs[1..]) == (s1, v1);
    } else {
      PanTelescopes(s1, v1, evs[1..]);
      assert evs[1..][|evs[1..]| - 1] == evs[|evs| - 1];
    }
  }

  /** Everything the paper reacts to: a pan event, a wheel tick, or the reset button. */
  datatype PaperEvent =
    | Pan(pan: PanEvent)
    | Wheel(deltaY: real, clientX: real, clientY: real)
    | Reset

  function PaperStep(s: PanState, v: Viewport, p: PaperSize, ev: PaperEvent): (PanState, Viewport)
    requires p.width > 0.0 && p.height > 0.0
  {
    match ev
    case Pan(e) => PanStep(s, v, e)
    case Wheel(dy, cx, cy) => (s, WheelZoom(v, p, dy, cx, cy))
    case Reset => (s, ResetZoom(v, p))
  }

  function PaperRun(s: PanState, v: Viewport, p: PaperSize, evs: seq<PaperEvent>): (PanState, Viewport)
    requires p.width > 0.0 && p.height > 0.0
    decreases |evs|
  {
    if evs == [] then (s, v)
    else
      var (s1, v1) := PaperStep(s, v, p, evs[0]);
      PaperRun(s1, v1, p, evs[1..])
  }

  /** From the initial viewport, whatever the user does with pans, wheel ticks and
      resets, the `viewBox` extent stays the paper size times a positive zoom. */
  lemma {:induction false} ViewportStaysSettled(s: PanState, v: Viewport, p: PaperSize, evs: seq<PaperEvent>)
    requires p.width > 0.0 && p.height > 0.0
    requires Settled(v, p) && v.zoom > 0.0
    ensures Settled(PaperRun(s, v, p, evs).1, p) && PaperRun(s, v, p, evs).1.zoom > 0.0
    decreases |evs|
  {
    if evs != [] {
      var (s1, v1) := PaperStep(s, v, p, evs[0]);
      ViewportStaysSettled(s1, v1, p, evs[1..]);
    }
  }
}

=== FILE: types.dfy ===
/** The node record of the mind map, in its nested (import) and flat (editing) shapes.

    A JavaScript optional field (`pid?`, `expanded?`, `visible?`) is an `Option`;
    coordinates are exact reals, so no IEEE-754 rounding is modelled. */
module Types {

  /** An optional field: absent (`undefined`) or present. */
  datatype Option<+T> = None | Some(value: T) {

    /** The value, or `default` when the field is absent (JavaScript `??`). */
    function GetOr(default: T): T {
      match this
      case Some(v) => v
      case None => default
    }
  }

  /** One node of the flat tree: a `NodeData` record without its `children` array
      (`text` is the source's `label`, a reserved word here). */
  datatype Entry = Entry(
    id: int,
    pid: Option<int>,
    text: string,
    x: real,
    y: real,
    expanded: Option<bool>,
    visible: Option<bool>)

  /** A nested `NodeData`: its own fields plus its children in source order.
      An absent `children` field and an empty array behave the same and are both `[]`. */
  datatype Tree = Tree(entry: Entry, children: seq<Tree>)

  /** `node.pid` is truthy: present and non-zero, so a `pid` of 0 means "no parent". */
  predicate HasParentRef(e: Entry) {
    e.pid.Some? && e.pid.value != 0
  }

  /** `node.visible !== false`: an absent flag counts as visible. */
  predicate NotHidden(e: Entry) {
    e.visible != Some(false)
  }

  /** `expanded === false` is the only collapsed state; absent counts as expanded. */
  predicate IsExpanded(e: Entry) {
    e.expanded != Some(false)
  }

  /** No two entries share an id. */
  predicate UniqueIds(es: seq<Entry>) {
    forall i, j :: 0 <= i < j < |es| ==> es[i].id != es[j].id
  }

  /** The ids occurring in a flat tree. */
  function IdsOf(es: seq<Entry>): set<int> {
    set e | e in es :: e.id
  }
}
